=== FILE: README.md ===
# Accumulo security operations, modelled in Dafny

This project models the authorization decision engine of Apache Accumulo's
tablet server, `SecurityOperationImpl`. For every request it decides whether
the caller is who they claim to be, and whether they may act on the system or
on a table. The model has four parts:

- **Credential verification** (`Oracle.Authenticate`). The instance id is
  checked first. The built-in system identity `!SYSTEM` is checked against the
  process-wide system credential and never reaches the identity backend. Every
  other user is checked by the identity backend.
- **Permission oracle** (`Oracle.HasSystemPermission`,
  `Oracle.HasTablePermission`, `Oracle.TargetUserExists`). Root and the system
  identity hold every system permission. The system identity holds every table
  permission. READ on the metadata table `!0` is open to every existing user.
- **Policy matrix** (`Policy`). This holds every `canX` predicate, plus the
  public `hasSystemPermission`/`hasTablePermission`. As in the source, the
  public `hasSystemPermission` and `canAskAboutOtherUsers` are mutually
  recursive. The public `hasTablePermission` calls `canAskAboutOtherUsers`
  but is never called back by it.
- **Mutation gateway and caches** (`Gateway`, `Caches`). Each mutation is a
  function from one state to the next. Cache clearing dispatches on its flags.

The two pluggable backends are modelled as plain state:

- `Authenticator`: a user → password map and a set of cached users.
- `Authorizor`: the known tables, per-user authorizations, granted
  (user, system permission) and (user, table, table permission) triples, and
  cache entries.

Java's checked exceptions become a `Result` carrying a `SecurityError(user,
code)`. Java's short-circuit `a || b` over calls that may throw becomes the
`Oracle.Or`/`Oracle.And` combinators. Each mutation returns a
`Step(after, status)`. A mutation that throws half-way keeps its partial
effect: `dropUser` removes the permission record before the identity, as in
the source.

Contracts are stated against a separate reference reading of the state, not
against the code paths:

- `Oracle.Genuine`: the credential is valid.
- `Oracle.Known`: the user exists.
- `Oracle.SysHolds` / `Oracle.TabHolds`: set membership, plus the built-in
  privileges.
- `Policy.MayAskAbout`: who may ask about another user.

`Traces` lets any sequence of requests run against the engine. It proves that
the protected identities survive every such sequence: root is never removed,
and the system identity never gets a backend account or a recorded permission.

All source paths below are relative to the repository root.

## Model

| member | source | states |
|---|---|---|
| Oracle.PasswordBytesEqual | server/src/main/java/org/apache/accumulo/server/security/SecurityOperationImpl.java:122 | the length-then-element-wise comparison answers true exactly when the two byte sequences are equal; `Oracle.Authenticate` uses it for the system credential |
| Oracle.Authenticate | server/src/main/java/org/apache/accumulo/server/security/SecurityOperationImpl.java:117-135 | a foreign instance id fails with INVALID_INSTANCEID before anything else; the system identity passes iff its password and instance match the system credential, decided without the identity backend; otherwise success iff the backend holds that password; every other failure is BAD_CREDENTIALS; success implies the caller exists |
| Oracle.TargetUserExists | server/src/main/java/org/apache/accumulo/server/security/SecurityOperationImpl.java:246-252 | succeeds iff the user is the system identity, root, or a backend user; otherwise USER_DOESNT_EXIST naming that user |
| Oracle.HasSystemPermission | server/src/main/java/org/apache/accumulo/server/security/SecurityOperationImpl.java:196-207 | root and the system identity get true with no other check; any other unknown user gets USER_DOESNT_EXIST; a known user gets exactly whether the permission is granted |
| Oracle.HasTablePermission | server/src/main/java/org/apache/accumulo/server/security/SecurityOperationImpl.java:215-231 | the system identity always gets true; an unknown user gets USER_DOESNT_EXIST even for READ on the metadata table (the existence check comes first); a known user always may READ the metadata table; for any other known user a missing table is TABLE_DOESNT_EXIST naming that user; any answer equals the reference holding |
| Engine.Bind | server/src/main/java/org/apache/accumulo/server/security/SecurityOperationImpl.java:83-93 | an engine can only be bound to two backends that each accept the other, and it keeps them as given |
| Policy.CanScan | server/src/main/java/org/apache/accumulo/server/security/SecurityOperationImpl.java:261-264 | authentication first; then table READ; neither an existing table nor the system identity ever throws; otherwise a missing table only throws TABLE_DOESNT_EXIST |
| Policy.CanWrite | server/src/main/java/org/apache/accumulo/server/security/SecurityOperationImpl.java:273-276 | authentication first; then table WRITE, with the same table-existence behaviour |
| Policy.CanSplitTablet | server/src/main/java/org/apache/accumulo/server/security/SecurityOperationImpl.java:285-289 | system ALTER_TABLE or SYSTEM or table ALTER_TABLE; either system permission answers yes even when the table is missing |
| Policy.CanPerformSystemActions | server/src/main/java/org/apache/accumulo/server/security/SecurityOperationImpl.java:299-302 | after authentication, never throws and answers exactly whether the caller holds SYSTEM |
| Policy.CanFlush | server/src/main/java/org/apache/accumulo/server/security/SecurityOperationImpl.java:310-313 | table WRITE or table ALTER_TABLE, with the same table-existence behaviour as scanning |
| Policy.CanAlterTable | server/src/main/java/org/apache/accumulo/server/security/SecurityOperationImpl.java:321-324 | table ALTER_TABLE or system ALTER_TABLE; the table is asked first, so a missing table, the metadata table included, throws TABLE_DOESNT_EXIST even for a system ALTER_TABLE holder; the system identity always gets yes |
| Policy.CanCreateTable | server/src/main/java/org/apache/accumulo/server/security/SecurityOperationImpl.java:330-333 | exactly system CREATE_TABLE, never throwing after authentication |
| Policy.CanRenameTable | server/src/main/java/org/apache/accumulo/server/security/SecurityOperationImpl.java:342-345 | system ALTER_TABLE or table ALTER_TABLE; the system permission answers first |
| Policy.CanCloneTable | server/src/main/java/org/apache/accumulo/server/security/SecurityOperationImpl.java:353-356 | system CREATE_TABLE and table READ; without CREATE_TABLE the answer is no without a table lookup; with it, a missing non-metadata table is TABLE_DOESNT_EXIST for any caller but the system identity, and the metadata table is always clonable |
| Policy.CanDeleteTable | server/src/main/java/org/apache/accumulo/server/security/SecurityOperationImpl.java:365-368 | system DROP_TABLE or table DROP_TABLE; the system permission answers first |
| Policy.CanOnlineOfflineTable | server/src/main/java/org/apache/accumulo/server/security/SecurityOperationImpl.java:377-381 | SYSTEM or system ALTER_TABLE or table ALTER_TABLE |
| Policy.CanMerge | server/src/main/java/org/apache/accumulo/server/security/SecurityOperationImpl.java:390-394 | SYSTEM or system ALTER_TABLE or table ALTER_TABLE; the source writes the same rule as canOnlineOfflineTable |
| Policy.CanDeleteRange | server/src/main/java/org/apache/accumulo/server/security/SecurityOperationImpl.java:403-406 | SYSTEM or table WRITE |
| Policy.CanBulkImport | server/src/main/java/org/apache/accumulo/server/security/SecurityOperationImpl.java:415-418 | table BULK_IMPORT, with the same table-existence behaviour as scanning |
| Policy.CanCompact | server/src/main/java/org/apache/accumulo/server/security/SecurityOperationImpl.java:427-431 | system ALTER_TABLE or table ALTER_TABLE or table WRITE |
| Policy.CanChangeAuthorizations | server/src/main/java/org/apache/accumulo/server/security/SecurityOperationImpl.java:438-443 | a system-identity target is PERMISSION_DENIED for the caller; otherwise exactly system ALTER_USER |
| Policy.CanChangePassword | server/src/main/java/org/apache/accumulo/server/security/SecurityOperationImpl.java:451-456 | a system-identity target is PERMISSION_DENIED; otherwise allowed for oneself, or for a holder of system ALTER_TABLE (as written) |
| Policy.CanCreateUser | server/src/main/java/org/apache/accumulo/server/security/SecurityOperationImpl.java:464-472 | the system identity's name is PERMISSION_DENIED, naming the requested user; otherwise exactly system CREATE_USER |
| Policy.CanDropUser | server/src/main/java/org/apache/accumulo/server/security/SecurityOperationImpl.java:480-488 | root or the system identity as target is PERMISSION_DENIED whatever the caller holds; otherwise exactly system DROP_USER |
| Policy.CanGrantSystem | server/src/main/java/org/apache/accumulo/server/security/SecurityOperationImpl.java:497-509 | a system-identity target is PERMISSION_DENIED; otherwise GRANT is GRANT_INVALID for every caller; otherwise exactly system GRANT |
| Policy.CanGrantTable | server/src/main/java/org/apache/accumulo/server/security/SecurityOperationImpl.java:518-526 | a system-identity target is PERMISSION_DENIED; otherwise system ALTER_TABLE or table GRANT |
| Policy.CanRevokeSystem | server/src/main/java/org/apache/accumulo/server/security/SecurityOperationImpl.java:535-547 | a root or system-identity target is PERMISSION_DENIED; otherwise GRANT is GRANT_INVALID; otherwise exactly system GRANT |
| Policy.CanRevokeTable | server/src/main/java/org/apache/accumulo/server/security/SecurityOperationImpl.java:556-564 | a system-identity target is PERMISSION_DENIED; otherwise system ALTER_TABLE or table GRANT; the source writes the same rule as canGrantTable |
| Policy.CanAskAboutOtherUsers | server/src/main/java/org/apache/accumulo/server/security/SecurityOperationImpl.java:234-240 | after authentication, never throws, and answers exactly whether the caller is the user asked about or holds SYSTEM, CREATE_USER, ALTER_USER or DROP_USER |
| Policy.AskSystemPermission | server/src/main/java/org/apache/accumulo/server/security/SecurityOperationImpl.java:736-740 | a caller not allowed to ask gets PERMISSION_DENIED; an allowed caller gets the oracle's answer about that user |
| Policy.AskTablePermission | server/src/main/java/org/apache/accumulo/server/security/SecurityOperationImpl.java:750-754 | the same, for a table permission |
| Gateway.AuthenticateUser | server/src/main/java/org/apache/accumulo/server/security/SecurityOperationImpl.java:144-155 | asking about oneself is true at once; asking about another needs SYSTEM (else PERMISSION_DENIED), and then the answer is whether the backend holds that password |
| Gateway.GetUserAuthorizations | server/src/main/java/org/apache/accumulo/server/security/SecurityOperationImpl.java:163-180 | an unknown user is USER_DOESNT_EXIST; another user's labels need SYSTEM; the system identity has no labels; anyone else gets the stored labels |
| Gateway.GetOwnAuthorizations | server/src/main/java/org/apache/accumulo/server/security/SecurityOperationImpl.java:187-189 | an authenticated caller gets their own stored labels, or none for the system identity; a caller without a permission record gets USER_DOESNT_EXIST |
| Gateway.ListUsers | server/src/main/java/org/apache/accumulo/server/security/SecurityOperationImpl.java:761-768 | every authenticated caller gets exactly the backend's users |
| Gateway.InitializeSecurityGate | server/src/main/java/org/apache/accumulo/server/security/SecurityOperationImpl.java:95-99 | only the system identity presenting the system credential on this instance gets through; any other authenticated caller is PERMISSION_DENIED |
| Gateway.ChangeAuthorizations | server/src/main/java/org/apache/accumulo/server/security/SecurityOperationImpl.java:572-584 | succeeds iff authenticated, target not the system identity, caller holds ALTER_USER, and target exists; then only that user's labels change; on failure nothing changes, with the error naming who is at fault |
| Gateway.ChangePassword | server/src/main/java/org/apache/accumulo/server/security/SecurityOperationImpl.java:592-601 | succeeds iff allowed by the password policy and the target is a backend user; then only that password changes; a self-change by a backend user always succeeds |
| Gateway.CreateUser | server/src/main/java/org/apache/accumulo/server/security/SecurityOperationImpl.java:610-622 | succeeds iff the caller holds CREATE_USER, the name is not the system identity's, and it is new; the new user gets the password, no permissions, and the requested labels only if the caller also holds ALTER_USER (otherwise none); every other user's system permissions, table permissions and labels are untouched |
| Gateway.DropUser | server/src/main/java/org/apache/accumulo/server/security/SecurityOperationImpl.java:629-639 | root and the system identity are refused and nothing changes; otherwise success iff the caller holds DROP_USER and the user exists, removing the account and every permission and label of that user while every other user's permissions and labels, the table set and the environment stay as they were; a failure never touches the identity backend |
| Gateway.GrantSystemPermission | server/src/main/java/org/apache/accumulo/server/security/SecurityOperationImpl.java:647-659 | succeeds iff the policy allows it and the target exists; then exactly one (user, permission) pair is added and nothing else changes; GRANT is GRANT_INVALID; a caller without system GRANT gets PERMISSION_DENIED; an unknown target gets USER_DOESNT_EXIST naming it |
| Gateway.RevokeSystemPermission | server/src/main/java/org/apache/accumulo/server/security/SecurityOperationImpl.java:690-703 | succeeds iff the policy allows it and the target exists; then exactly that pair is removed; root and the system identity are refused; a caller without system GRANT gets PERMISSION_DENIED; an unknown target gets USER_DOESNT_EXIST naming it |
| Gateway.GrantTablePermission | server/src/main/java/org/apache/accumulo/server/security/SecurityOperationImpl.java:668-682 | succeeds iff the policy allows it, the target exists and the table exists; then exactly one triple is added; a caller with neither system ALTER_TABLE nor GRANT on an existing table gets PERMISSION_DENIED; a missing table gets TABLE_DOESNT_EXIST naming the caller unless system ALTER_TABLE lets the target check run first; an allowed caller naming an unknown target gets USER_DOESNT_EXIST naming it |
| Gateway.RevokeTablePermission | server/src/main/java/org/apache/accumulo/server/security/SecurityOperationImpl.java:712-727 | the same decisions and errors as granting, removing exactly that triple |
| Gateway.DeleteTable | server/src/main/java/org/apache/accumulo/server/security/SecurityOperationImpl.java:775-786 | succeeds iff the caller holds system or table DROP_TABLE and the table exists; then every grant on that table goes and every other grant stays; a missing table is TABLE_DOESNT_EXIST |
| Caches.ClearCache | server/src/main/java/org/apache/accumulo/server/security/SecurityOperationImpl.java:789-802 | the identity backend changes only if a password clear is asked for; the permission backend only if auths, system or a non-empty table set is asked for; it fails iff it consults the permission backend and a listed table is unknown; on success exactly the matching entries are gone |
| Caches.ClearTableCache | server/src/main/java/org/apache/accumulo/server/security/SecurityOperationImpl.java:805-813 | succeeds iff the table exists, and then drops exactly the cached entries for that table; otherwise TABLE_DOESNT_EXIST naming the table, with nothing changed |
| Caches.CachesToClear | server/src/main/java/org/apache/accumulo/server/security/SecurityOperationImpl.java:815-822 | whether either backend still holds a cache entry; its meaning is given by `Caches.NothingToClearIsNoOp` (with no entry anywhere, every successful clear changes nothing) and `Caches.FullClearOfOnlyUserEmptiesCaches` (a full clear of the only user with entries makes it false) |
| Caches.ClearTableCacheIdempotent | server/src/main/java/org/apache/accumulo/server/security/SecurityOperationImpl.java:805-813 | clearing a table's cache twice gives the same state and status as clearing it once |
| Caches.NothingToClearIsNoOp | server/src/main/java/org/apache/accumulo/server/security/SecurityOperationImpl.java:789-822 | when no backend holds a cache entry, every successful clear of either kind leaves the state exactly as it was |
| Caches.FullClearForgetsUser | server/src/main/java/org/apache/accumulo/server/security/SecurityOperationImpl.java:789-802 | after a successful clear of every flag, the user's cached identity, authorizations, system permissions and the listed tables' permissions are gone, and every other user's entries remain |
| Caches.FullClearOfOnlyUserEmptiesCaches | server/src/main/java/org/apache/accumulo/server/security/SecurityOperationImpl.java:789-822 | when only one user has cached identity, authorization or system-permission entries, one full clear of that user leaves nothing for a sweep to clear |
| Traces.ApplyKeepsProtected | server/src/main/java/org/apache/accumulo/server/security/SecurityOperationImpl.java:464-564 | any single request, from any caller, keeps root as a backend user and keeps the system identity without an account, labels or permissions |
| Traces.RunKeepsProtected | server/src/main/java/org/apache/accumulo/server/security/SecurityOperationImpl.java:464-488 | the same for any sequence of requests, by induction on its length |
| Traces.WrongInstanceChangesNothing | server/src/main/java/org/apache/accumulo/server/security/SecurityOperationImpl.java:117-119 | every credentialed mutation with a foreign instance id fails with INVALID_INSTANCEID and leaves the state unchanged |
| Traces.RootKeepsAccount | server/src/main/java/org/apache/accumulo/server/security/SecurityOperationImpl.java:117-131 | after any sequence of requests, from any callers, root keeps an identity-backend account, so some password authenticates it on the local instance (which one may have changed, see Findings) |
| Traces.RootCannotBeDropped | server/src/main/java/org/apache/accumulo/server/security/SecurityOperationImpl.java:480-488 | in every state, dropping the root user fails for every caller and leaves the state unchanged, so the identity backend is never asked |
| Traces.SystemUserCannotBeGranted | server/src/main/java/org/apache/accumulo/server/security/SecurityOperationImpl.java:497-509 | in every state, granting the system identity any system permission fails for every caller and leaves the state unchanged |
| Scenarios.WrongInstanceRefusesEveryQuery | server/src/main/java/org/apache/accumulo/server/security/SecurityOperationImpl.java:117-119 | every predicate of the matrix refuses a foreign instance id with INVALID_INSTANCEID |
| Scenarios.SystemUserBypassesBackend | server/src/main/java/org/apache/accumulo/server/security/SecurityOperationImpl.java:121-127 | the system identity's authentication verdict and its answer to every `canX` question are the same whatever the backends hold |
| Scenarios.MetadataAlwaysScannable | server/src/main/java/org/apache/accumulo/server/security/SecurityOperationImpl.java:221-222 | every authenticated caller may scan the metadata table |
| Scenarios.GrantIsNeverTransferable | server/src/main/java/org/apache/accumulo/server/security/SecurityOperationImpl.java:497-547 | granting or revoking GRANT fails for every caller and target, and changes nothing |
| Scenarios.CloneAfterGrantingRead | server/src/main/java/org/apache/accumulo/server/security/SecurityOperationImpl.java:353-356 | a CREATE_TABLE holder without READ cannot clone a table; after READ is granted to them, they can |
| Scenarios.ChangedAuthorizationsReadBackBySelf | server/src/main/java/org/apache/accumulo/server/security/SecurityOperationImpl.java:572-584 | after a successful change of authorizations, the user reads back exactly the new labels |
| Scenarios.CreatedUserReadsBackAuthorizations | server/src/main/java/org/apache/accumulo/server/security/SecurityOperationImpl.java:610-622 | a user created and then given labels logs in with their creation password and reads back those labels |
| Scenarios.ChangedPasswordAuthenticates | server/src/main/java/org/apache/accumulo/server/security/SecurityOperationImpl.java:592-601 | after a password change, the new password authenticates and any other is refused with BAD_CREDENTIALS |
| Scenarios.CreatedUserIsListed | server/src/main/java/org/apache/accumulo/server/security/SecurityOperationImpl.java:610-622 | after a successful user creation, the user list seen by any authenticated caller is the old list plus the new user |
| Scenarios.DroppedUserIsNotListed | server/src/main/java/org/apache/accumulo/server/security/SecurityOperationImpl.java:629-639 | after a successful drop, the user list seen by any authenticated caller is the old list without the dropped user |
| Hardening.AlterTableHolderResetsRootPassword | server/src/main/java/org/apache/accumulo/server/security/SecurityOperationImpl.java:451-456 | as written, a non-root holder of system ALTER_TABLE changes root's password and root's old password is then refused with BAD_CREDENTIALS |
| Hardening.ChangePasswordGuarded | server/src/main/java/org/apache/accumulo/server/security/SecurityOperationImpl.java:592-601 | on a root target, only root itself gets through (others get PERMISSION_DENIED after authenticating, with no change); any other request behaves exactly as `Gateway.ChangePassword` |
| Hardening.RootPasswordOnlyBySelf | server/src/main/java/org/apache/accumulo/server/security/SecurityOperationImpl.java:592-601 | with the guard, no caller but root changes anything by asking to change root's password, and an authenticated root still succeeds |
| Hardening.AlterTableHolderRevokesRootTablePermission | server/src/main/java/org/apache/accumulo/server/security/SecurityOperationImpl.java:556-564 | as written, any system ALTER_TABLE holder revokes a table permission root holds on an existing table |
| Hardening.RevokeTablePermissionGuarded | server/src/main/java/org/apache/accumulo/server/security/SecurityOperationImpl.java:712-727 | a root target is PERMISSION_DENIED for every authenticated caller, with no change; any other request behaves exactly as `Gateway.RevokeTablePermission` |
| Hardening.RootTablePermissionsKept | server/src/main/java/org/apache/accumulo/server/security/SecurityOperationImpl.java:712-727 | with the guard, no request to revoke a table permission of root succeeds or changes the state |

## Left out

- The process-wide singleton `getInstance`, the audit decorator that wraps the engine, and reflective backend selection from site configuration (lines 53-81). These are process lifecycle and class loading. The compatibility check of the constructor (lines 87-89) is kept, as the precondition of `Engine.Bind`.
- The ZooKeeper lookup and `synchronized` memoization of `getRootUsername` (lines 111-115). The root name is a fixed field of `Env` for the life of the process.
- The seeding part of `initializeSecurity` (lines 100-108). It writes to external stores, and its "should not happen" path is a runtime error. Only its gate, `Gateway.InitializeSecurityGate`, is modelled.
- All `log.info` audit lines. They have no effect on decisions or state.
- Backend internals. The identity and permission backends are plain state, and their behaviour is one reasonable reading, not taken from any implementation:
  - creating an existing user is USER_EXISTS;
  - changing the password of, or dropping, an unknown user is USER_DOESNT_EXIST;
  - reading the labels of a user without a permission record is USER_DOESNT_EXIST;
  - any operation on an unknown table is a `TableNotFoundException`;
  - the identity backend does not look at the instance id.

  In this model the backends never throw a security exception anywhere else, so the source's `asThriftException` pass-through paths are modelled (`Gateway.Translate`) but reached only through these cases.
- The values `!SYSTEM` (system user name), `!0` (metadata table id) and the empty `NO_AUTHS` come from `SecurityConstants` and `Constants`, which are not part of this model. No property depends on the particular strings.
- `Authorizations` is modelled as a set of labels. The order and duplicates of the source's list are not kept.
- Passwords are compared as whole byte sequences. The source compares the whole backing arrays of the `ByteBuffer`s, so a buffer whose backing array is larger than its content is not modelled.
- The source's `canChangePassword` uses system ALTER_TABLE, not ALTER_USER, as the permission that lets one user change another's password. `Policy.CanChangePassword` models it as written.
- Concurrency. Calls are modelled one at a time; the source relies on the backends for its thread safety.
- `core/src/main/java/org/apache/accumulo/core/client/mapreduce/AccumuloOutputFormat.java` in its entirety. It is MapReduce output plumbing with network I/O, and is outside the decision engine.

## Findings

The source protects root as a target in two of its checks. `canDropUser` refuses to delete root or the system identity (lines 483-485). `canRevokeSystem` refuses to modify either of them (lines 538-540). Two other checks on a target user protect only the system identity. The main model, and the request traces in `Traces`, keep the behaviour as written. The guarded variants in `Hardening` protect root as the sibling checks do, and lemmas prove that protection for them. Both rows are inferred from these sibling checks alone.

| source | as written | input that shows it | evidently intended | confidence | as-written member | corrected member |
|---|---|---|---|---|---|---|
| server/src/main/java/org/apache/accumulo/server/security/SecurityOperationImpl.java:451-456 | a password change for another user needs only system ALTER_TABLE, even when the target is root | a non-root user holding system ALTER_TABLE calls `changePassword` on root with a new password | root's password changes only at root's own request | low: nothing at lines 451-456 protects root, and its comment names only the system identity; only the sibling checks at 483-485 and 538-540 suggest the intent, and an administrator resetting root's password may be deliberate; not executed | Hardening.AlterTableHolderResetsRootPassword | Hardening.ChangePasswordGuarded, Hardening.RootPasswordOnlyBySelf |
| server/src/main/java/org/apache/accumulo/server/security/SecurityOperationImpl.java:556-564 | revoking a table permission refuses only the system identity as target | a system ALTER_TABLE holder revokes ALTER_TABLE on the metadata table from root | root's table permissions cannot be revoked, as `canRevokeSystem` protects root's system permissions at lines 538-540 | medium: the asymmetry with `canRevokeSystem` (538-540), whose comment says root may not be modified, supports it; not executed | Hardening.AlterTableHolderRevokesRootTablePermission | Hardening.RevokeTablePermissionGuarded, Hardening.RootTablePermissionsKept |

=== FILE: authenticator.dfy ===
/** The identity backend as abstract state: a user -> password map and the set
    of users whose credentials a cache may still hold. Only the capabilities
    the security core calls are modelled. */
module Authenticator {
  import opened Types

  /** `kind` names the implementation; `accepts` lists the permission-backend
      kinds it declares itself compatible with. */
  datatype AuthenticatorState = AuthenticatorState(
    kind: string,
    accepts: set<string>,
    passwords: map<UserName, Bytes>,
    cached: set<UserName>)

  predicate UserExists(a: AuthenticatorState, user: UserName) {
    user in a.passwords
  }

  /** The backend's own password check; the instance id is not consulted. */
  predicate AuthenticateUser(a: AuthenticatorState, user: UserName, password: Bytes, instance: string) {
    user in a.passwords && a.passwords[user] == password
  }

  function CreateUser(a: AuthenticatorState, user: UserName, password: Bytes): (r: Backend<AuthenticatorState>)
    ensures r.Done? <==> !UserExists(a, user)
    ensures r.Refused? ==> r.error == SecurityError(user, ErrorCode.UserExists)
    ensures r.Done? ==> AuthenticateUser(r.value, user, password, "")
  {
    if user in a.passwords then Refused(SecurityError(user, ErrorCode.UserExists))
    else Done(a.(passwords := a.passwords[user := password]))
  }

  function DropUser(a: AuthenticatorState, user: UserName): (r: Backend<AuthenticatorState>)
    ensures r.Done? <==> UserExists(a, user)
    ensures r.Refused? ==> r.error == SecurityError(user, UserDoesntExist)
    ensures r.Done? ==> !UserExists(r.value, user) && user !in r.value.cached
  {
    if user !in a.passwords then Refused(SecurityError(user, UserDoesntExist))
    else Done(a.(passwords := a.passwords - {user}, cached := a.cached - {user}))
  }

  function ChangePassword(a: AuthenticatorState, user: UserName, password: Bytes): (r: Backend<AuthenticatorState>)
    ensures r.Done? <==> UserExists(a, user)
    ensures r.Refused? ==> r.error == SecurityError(user, UserDoesntExist)
    ensures r.Done? ==> AuthenticateUser(r.value, user, password, "")
  {
    if user !in a.passwords then Refused(SecurityError(user, UserDoesntExist))
    else Done(a.(passwords := a.passwords[user := password]))
  }

  function ListUsers(a: AuthenticatorState): set<UserName> {
    a.passwords.Keys
  }

  function ClearCache(a: AuthenticatorState, user: UserName): (r: AuthenticatorState)
    ensures user !in r.cached
  {
    a.(cached := a.cached - {user})
  }

  predicate CachesToClear(a: AuthenticatorState) {
    a.cached != {}
  }
}

=== FILE: authorizor.dfy ===
/** The permission backend as abstract state: the tables it knows, each user's
    authorizations, the granted system and table permissions, and the cache
    entries that may be stale. Only the capabilities the security core calls
    are modelled. */
module Authorizor {
  import opened Types

  /** A cache entry of the permission backend, keyed by user or by user and table. */
  datatype CacheEntry =
    | AuthsOf(user: UserName)
    | SystemOf(user: UserName)
    | TableOf(user: UserName, table: TableId)

  /** `kind` names the implementation; `accepts` lists the identity-backend
      kinds it declares itself compatible with. */
  datatype AuthorizorState = AuthorizorState(
    kind: string,
    accepts: set<string>,
    tables: set<TableId>,
    auths: map<UserName, Authorizations>,
    sysPerms: set<(UserName, SystemPermission)>,
    tablePerms: set<(UserName, TableId, TablePermission)>,
    cached: set<CacheEntry>)

  /** No permission of any kind is recorded for `user`. */
  ghost predicate NoPermissions(z: AuthorizorState, user: UserName) {
    && (forall p :: (user, p) !in z.sysPerms)
    && (forall t, p :: (user, t, p) !in z.tablePerms)
  }

  function GetUserAuthorizations(z: AuthorizorState, user: UserName): (r: Backend<Authorizations>)
    ensures r.Done? <==> user in z.auths
    ensures r.Done? ==> r.value == z.auths[user]
    ensures r.Refused? ==> r.error == SecurityError(user, UserDoesntExist)
  {
    if user in z.auths then Done(z.auths[user]) else Refused(SecurityError(user, UserDoesntExist))
  }

  predicate HasSystemPermission(z: AuthorizorState, user: UserName, p: SystemPermission) {
    (user, p) in z.sysPerms
  }

  function HasTablePermission(z: AuthorizorState, user: UserName, table: TableId, p: TablePermission): (r: Backend<bool>)
    ensures r.TableNotFound? <==> table !in z.tables
    ensures r.Done? ==> (r.value <==> (user, table, p) in z.tablePerms)
  {
    if table !in z.tables then TableNotFound else Done((user, table, p) in z.tablePerms)
  }

  function RemoveUser(z: AuthorizorState, user: UserName): (r: AuthorizorState)
    ensures NoPermissions(r, user)
    ensures r.kind == z.kind && r.accepts == z.accepts && r.tables == z.tables
    ensures forall u, p :: u != user ==> ((u, p) in r.sysPerms <==> (u, p) in z.sysPerms)
    ensures forall u, t, p :: u != user ==> ((u, t, p) in r.tablePerms <==> (u, t, p) in z.tablePerms)
    ensures forall u :: u != user ==> (u in r.auths <==> u in z.auths)
    ensures forall u :: u != user && u in r.auths ==> r.auths[u] == z.auths[u]
  {
    z.(auths := z.auths - {user},
       sysPerms := (set x | x in z.sysPerms && x.0 != user),
       tablePerms := (set x | x in z.tablePerms && x.0 != user),
       cached := (set e | e in z.cached && e.user != user))
  }

  /** A fresh user: empty authorizations and no permissions. */
  function InitUser(z: AuthorizorState, user: UserName): (r: AuthorizorState)
    ensures user in r.auths && r.auths[user] == {}
    ensures NoPermissions(r, user)
    ensures r.kind == z.kind && r.accepts == z.accepts && r.tables == z.tables
    ensures forall u, p :: u != user ==> ((u, p) in r.sysPerms <==> (u, p) in z.sysPerms)
    ensures forall u, t, p :: u != user ==> ((u, t, p) in r.tablePerms <==> (u, t, p) in z.tablePerms)
    ensures forall u :: u != user ==> (u in r.auths <==> u in z.auths)
    ensures forall u :: u != user && u in r.auths ==> r.auths[u] == z.auths[u]
  {
    var cleared := RemoveUser(z, user);
    cleared.(auths := cleared.auths[user := {}])
  }

  function DropUser(z: AuthorizorState, user: UserName): (r: AuthorizorState)
    ensures user !in r.auths && NoPermissions(r, user)
    ensures r.kind == z.kind && r.accepts == z.accepts && r.tables == z.tables
    ensures forall u, p :: u != user ==> ((u, p) in r.sysPerms <==> (u, p) in z.sysPerms)
    ensures forall u, t, p :: u != user ==> ((u, t, p) in r.tablePerms <==> (u, t, p) in z.tablePerms)
    ensures forall u :: u != user ==> (u in r.auths <==> u in z.auths)
    ensures forall u :: u != user && u in r.auths ==> r.auths[u] == z.auths[u]
  {
    RemoveUser(z, user)
  }

  function ChangeAuthorizations(z: AuthorizorState, user: UserName, a: Authorizations): (r: AuthorizorState)
    ensures user in r.auths && r.auths[user] == a
  {
    z.(auths := z.auths[user := a])
  }

  function GrantSystemPermission(z: AuthorizorState, user: UserName, p: SystemPermission): (r: AuthorizorState)
    ensures HasSystemPermission(r, user, p)
  {
    z.(sysPerms := z.sysPerms + {(user, p)})
  }

  function RevokeSystemPermission(z: AuthorizorState, user: UserName, p: SystemPermission): (r: AuthorizorState)
    ensures !HasSystemPermission(r, user, p)
  {
    z.(sysPerms := z.sysPerms - {(user, p)})
  }

  function GrantTablePermission(z: AuthorizorState, user: UserName, table: TableId, p: TablePermission): (r: Backend<AuthorizorState>)
    ensures r.Done? <==> table in z.tables
    ensures r.Done? ==> (user, table, p) in r.value.tablePerms
  {
    if table !in z.tables then TableNotFound
    else Done(z.(tablePerms := z.tablePerms + {(user, table, p)}))
  }

  function RevokeTablePermission(z: AuthorizorState, user: UserName, table: TableId, p: TablePermission): (r: Backend<AuthorizorState>)
    ensures r.Done? <==> table in z.tables
    ensures r.Done? ==> (user, table, p) !in r.value.tablePerms
  {
    if table !in z.tables then TableNotFound
    else Done(z.(tablePerms := z.tablePerms - {(user, table, p)}))
  }

  /** Forget every permission recorded on `table`. */
  function CleanTablePermissions(z: AuthorizorState, table: TableId): (r: Backend<AuthorizorState>)
    ensures r.Done? <==> table in z.tables
    ensures r.Done? ==> forall u, p :: (u, table, p) !in r.value.tablePerms
  {
    if table !in z.tables then TableNotFound
    else Done(z.(tablePerms := set x | x in z.tablePerms && x.1 != table))
  }

  /** The cache entry `e` of `user` is one a clear with these flags removes. */
  predicate Cleared(e: CacheEntry, user: UserName, auths: bool, system: bool, tables: set<TableId>) {
    match e
    case AuthsOf(u) => u == user && auths
    case SystemOf(u) => u == user && system
    case TableOf(u, t) => u == user && t in tables
  }

  function ClearCache(z: AuthorizorState, user: UserName, auths: bool, system: bool, tables: set<TableId>): (r: Backend<AuthorizorState>)
    ensures r.Done? <==> tables <= z.tables
    ensures r.Done? ==> forall e :: e in r.value.cached <==> e in z.cached && !Cleared(e, user, auths, system, tables)
  {
    if !(tables <= z.tables) then TableNotFound
    else Done(z.(cached := set e | e in z.cached && !Cleared(e, user, auths, system, tables)))
  }

  function ClearTableCache(z: AuthorizorState, table: TableId): (r: Backend<AuthorizorState>)
    ensures r.Done? <==> table in z.tables
    ensures r.Done? ==> forall u :: TableOf(u, table) !in r.value.cached
  {
    if table !in z.tables then TableNotFound
    else Done(z.(cached := set e | e in z.cached && !(e.TableOf? && e.table == table)))
  }

  predicate CachesToClear(z: AuthorizorState) {
    z.cached != {}
  }
}

=== FILE: caches.dfy ===
/** Cache invalidation: the two `clearCache` overloads and `cachesToClear`.
    These are server-internal calls; they take no credentials. */
module Caches {
  import opened Types
  import opened Engine
  import Authenticator
  import Authorizor

  /** `clearCache(user, password, auths, system, tables)`: the identity backend
      is touched only for `password`, the permission backend only when one of
      `auths`, `system` or a non-empty `tables` is asked for. */
  function ClearCache(s: Security, user: UserName, password: bool, auths: bool, system: bool, tables: set<TableId>): (r: Step)
    ensures r.after.env == s.env
    ensures !password ==> r.after.authn == s.authn
    ensures password ==> r.after.authn.(cached := s.authn.cached) == s.authn
    ensures password ==> forall u :: u in r.after.authn.cached <==> u in s.authn.cached && u != user
    ensures !(auths || system || |tables| > 0) ==> r.status.Ok? && r.after.authz == s.authz
    ensures r.status.Fail? <==> (auths || system || |tables| > 0) && !(tables <= s.authz.tables)
    ensures r.status.Fail? ==> r.status.error == SecurityError(user, TableDoesntExist) && r.after.authz == s.authz
    ensures r.after.authz.(cached := s.authz.cached) == s.authz
    ensures r.status.Ok? && (auths || system || |tables| > 0) ==>
              forall e :: e in r.after.authz.cached <==> e in s.authz.cached && !Authorizor.Cleared(e, user, auths, system, tables)
  {
    var s1 := if password then s.(authn := Authenticator.ClearCache(s.authn, user)) else s;
    if auths || system || |tables| > 0 then
      match Authorizor.ClearCache(s1.authz, user, auths, system, tables)
      case Done(z) => Step(s1.(authz := z), Ok(()))
      case Refused(e) => Step(s1, Fail(e))
      case TableNotFound => Step(s1, Fail(SecurityError(user, TableDoesntExist)))
    else
      Step(s1, Ok(()))
  }

  /** `clearCache(table)`: drops every cached table permission on `table`; the
      exception for a missing table is attributed to the table id. */
  function ClearTableCache(s: Security, table: TableId): (r: Step)
    ensures r.status.Ok? <==> table in s.authz.tables
    ensures r.status.Fail? ==> r == Step(s, Fail(SecurityError(table, TableDoesntExist)))
    ensures r.status.Ok? ==>
              && r.after.env == s.env && r.after.authn == s.authn
              && r.after.authz.(cached := s.authz.cached) == s.authz
              && forall e :: e in r.after.authz.cached <==> e in s.authz.cached && !(e.TableOf? && e.table == table)
  {
    match Authorizor.ClearTableCache(s.authz, table)
    case Done(z) => Step(s.(authz := z), Ok(()))
    case Refused(e) => Step(s, Fail(e))
    case TableNotFound => Step(s, Fail(SecurityError(table, TableDoesntExist)))
  }

  /** Whether either backend still holds an entry a sweep should clear. */
  function CachesToClear(s: Security): (r: bool)
    ensures r <==> (exists u :: u in s.authn.cached) || (exists e :: e in s.authz.cached)
  {
    Authenticator.CachesToClear(s.authn) || Authorizor.CachesToClear(s.authz)
  }

  /** With no cache entry anywhere, a clear that succeeds changes nothing. */
  lemma NothingToClearIsNoOp(s: Security, user: UserName, password: bool, auths: bool, system: bool,
                             tables: set<TableId>, table: TableId)
    requires !CachesToClear(s)
    ensures ClearCache(s, user, password, auths, system, tables).status.Ok? ==>
              ClearCache(s, user, password, auths, system, tables).after == s
    ensures ClearTableCache(s, table).status.Ok? ==> ClearTableCache(s, table).after == s
  {
  }

  /** A successful clear of every flag forgets all of `user`'s entries that
      were asked for, and keeps every entry it was not asked to clear. */
  lemma FullClearForgetsUser(s: Security, user: UserName, tables: set<TableId>)
    requires ClearCache(s, user, true, true, true, tables).status.Ok?
    ensures var t := ClearCache(s, user, true, true, true, tables).after;
            && user !in t.authn.cached
            && Authorizor.AuthsOf(user) !in t.authz.cached
            && Authorizor.SystemOf(user) !in t.authz.cached
            && (forall table :: table in tables ==> Authorizor.TableOf(user, table) !in t.authz.cached)
            && (forall u :: u in s.authn.cached && u != user ==> u in t.authn.cached)
            && (forall e :: e in s.authz.cached && e.user != user ==> e in t.authz.cached)
  {
  }

  /** Once every user with a cached identity or permission has been fully
      cleared, there is nothing left for a sweep to clear. */
  lemma FullClearOfOnlyUserEmptiesCaches(s: Security, user: UserName)
    requires forall u :: u in s.authn.cached ==> u == user
    requires forall e :: e in s.authz.cached ==> e.user == user && !e.TableOf?
    ensures ClearCache(s, user, true, true, true, {}).status.Ok?
    ensures !CachesToClear(ClearCache(s, user, true, true, true, {}).after)
  {
  }

  /** Clearing a table's cache twice is the same as clearing it once. */
  lemma ClearTableCacheIdempotent(s: Security, table: TableId)
    ensures ClearTableCache(ClearTableCache(s, table).after, table) == ClearTableCache(s, table)
  {
  }
}

=== FILE: engine.dfy ===
/** The state the security core works over: the process constants and the two
    backends it was bound to, and the shape of a mutating call's outcome. */
module Engine {
  import opened Types
  import Authenticator
  import Authorizor

  datatype Security = Security(
    env: Env,
    authn: Authenticator.AuthenticatorState,
    authz: Authorizor.AuthorizorState)

  /** Each backend declares the other one acceptable. */
  predicate Compatible(authz: Authorizor.AuthorizorState, authn: Authenticator.AuthenticatorState) {
    authn.kind in authz.accepts && authz.kind in authn.accepts
  }

  /** Binding an engine to its two backends; refused unless they are compatible. */
  function Bind(env: Env, authz: Authorizor.AuthorizorState, authn: Authenticator.AuthenticatorState): (s: Security)
    requires Compatible(authz, authn)
    ensures Compatible(s.authz, s.authn)
    ensures s.env == env && s.authz == authz && s.authn == authn
  {
    Security(env, authn, authz)
  }

  /** A mutating call: the state afterwards and whether it completed or threw.
      A throw may leave a partial effect behind, as in the source. */
  datatype Step = Step(after: Security, status: Result<()>)
}

=== FILE: gateway.dfy ===
/** The mutation gateway and the read-side queries of SecurityOperationImpl.
    Every mutation runs its policy predicate, turns a `false` into
    PERMISSION_DENIED for the caller, checks the target where the source does,
    and then changes backend state. */
module Gateway {
  import opened Types
  import opened Engine
  import opened Oracle
  import opened Policy
  import Authenticator
  import Authorizor

  // ---------------------------------------------------------------------
  // Plumbing
  // ---------------------------------------------------------------------

  /** `if (!canX(...)) throw PERMISSION_DENIED(caller)`. */
  function Permit(decision: Result<bool>, c: Credentials): (r: Result<()>)
    ensures r.Ok? <==> decision == Ok(true)
    ensures decision == Ok(false) ==> r == Fail(SecurityError(c.user, PermissionDenied))
    ensures decision.Fail? ==> r == Fail(decision.error)
  {
    var allowed :- decision;
    if allowed then Ok(()) else Fail(SecurityError(c.user, PermissionDenied))
  }

  /** The catch blocks around a backend call: a security exception passes
      through, a missing table becomes TABLE_DOESNT_EXIST attributed to `blame`. */
  function Translate<T>(b: Backend<T>, blame: UserName): (r: Result<T>)
    ensures b.Done? ==> r == Ok(b.value)
    ensures b.Refused? ==> r == Fail(b.error)
    ensures b.TableNotFound? ==> r == Fail(SecurityError(blame, TableDoesntExist))
  {
    match b
    case Done(v) => Ok(v)
    case Refused(e) => Fail(e)
    case TableNotFound => Fail(SecurityError(blame, TableDoesntExist))
  }

  /** A mutation attempted with a credential that does not authenticate
      changes nothing and throws the authentication exception. */
  ghost predicate RejectsUnauthenticated(s: Security, c: Credentials, r: Step) {
    Authenticate(s, c).Fail? ==> r == Step(s, Fail(Authenticate(s, c).error))
  }

  // ---------------------------------------------------------------------
  // Queries
  // ---------------------------------------------------------------------

  /** `authenticateUser(credentials, user, password)`: asking about oneself is
      answered `true` at once; asking about others needs SYSTEM. */
  function AuthenticateUser(s: Security, c: Credentials, user: UserName, password: Bytes): (r: Result<bool>)
    ensures AuthenticatedFirst(s, c, r)
    ensures Genuine(s, c) && c.user == user ==> r == Ok(true)
    ensures Genuine(s, c) && c.user != user && !SysHolds(s, c.user, SystemPermission.System) ==>
              r == Fail(SecurityError(c.user, PermissionDenied))
    ensures Genuine(s, c) && c.user != user && SysHolds(s, c.user, SystemPermission.System) ==>
              r == Ok(user in s.authn.passwords && s.authn.passwords[user] == password)
  {
    var _ :- Authenticate(s, c);
    if c.user == user then Ok(true)
    else
      match CanPerformSystemActions(s, c)
      case Fail(e) => Fail(e)
      case Ok(system) =>
        if !system then Fail(SecurityError(c.user, PermissionDenied))
        else Ok(Authenticator.AuthenticateUser(s.authn, user, password, c.instanceId))
  }

  /** `getUserAuthorizations(credentials, user)`. */
  function GetUserAuthorizations(s: Security, c: Credentials, user: UserName): (r: Result<Authorizations>)
    ensures AuthenticatedFirst(s, c, r)
    ensures Genuine(s, c) && !Known(s, user) ==> r == Fail(SecurityError(user, UserDoesntExist))
    ensures Genuine(s, c) && Known(s, user) && c.user != user && !SysHolds(s, c.user, SystemPermission.System) ==>
              r == Fail(SecurityError(c.user, PermissionDenied))
    ensures Genuine(s, c) && Known(s, user) && (c.user == user || SysHolds(s, c.user, SystemPermission.System)) ==>
              && (user == SystemUserName ==> r == Ok(NoAuths))
              && (user != SystemUserName && user in s.authz.auths ==> r == Ok(s.authz.auths[user]))
              && (user != SystemUserName && user !in s.authz.auths ==> r == Fail(SecurityError(user, UserDoesntExist)))
  {
    var _ :- Authenticate(s, c);
    var _ :- TargetUserExists(s, user);
    match if c.user == user then Ok(true) else HasSystemPermission(s, c.user, SystemPermission.System)
    case Fail(e) => Fail(e)
    case Ok(permitted) =>
      if !permitted then Fail(SecurityError(c.user, PermissionDenied))
      else if user == SystemUserName then Ok(NoAuths)
      else Translate(Authorizor.GetUserAuthorizations(s.authz, user), user)
  }

  /** `getUserAuthorizations(credentials)`: the caller's own authorizations. */
  function GetOwnAuthorizations(s: Security, c: Credentials): (r: Result<Authorizations>)
    ensures AuthenticatedFirst(s, c, r)
    ensures Genuine(s, c) && c.user == SystemUserName ==> r == Ok(NoAuths)
    ensures Genuine(s, c) && c.user != SystemUserName && c.user in s.authz.auths ==> r == Ok(s.authz.auths[c.user])
    ensures Genuine(s, c) && c.user != SystemUserName && c.user !in s.authz.auths ==>
              r == Fail(SecurityError(c.user, UserDoesntExist))
  {
    GetUserAuthorizations(s, c, c.user)
  }

  /** `listUsers`: any authenticated caller sees every backend user. */
  function ListUsers(s: Security, c: Credentials): (r: Result<set<UserName>>)
    ensures AuthenticatedFirst(s, c, r)
    ensures Genuine(s, c) ==> r.Ok? && forall u :: u in r.value <==> Authenticator.UserExists(s.authn, u)
  {
    var _ :- Authenticate(s, c);
    Ok(Authenticator.ListUsers(s.authn))
  }

  /** The gate of `initializeSecurity`: only the system identity may seed the stores. */
  function InitializeSecurityGate(s: Security, c: Credentials): (r: Result<()>)
    ensures AuthenticatedFirst(s, c, r)
    ensures r.Ok? <==> c.user == SystemUserName && c.instanceId == s.env.localInstance && SystemCredentialMatch(s.env, c)
    ensures Genuine(s, c) && c.user != SystemUserName ==> r == Fail(SecurityError(c.user, PermissionDenied))
  {
    var _ :- Authenticate(s, c);
    if c.user != SystemUserName then Fail(SecurityError(c.user, PermissionDenied)) else Ok(())
  }

  // ---------------------------------------------------------------------
  // Mutations
  // ---------------------------------------------------------------------

  function ChangeAuthorizations(s: Security, c: Credentials, user: UserName, a: Authorizations): (r: Step)
    ensures RejectsUnauthenticated(s, c, r)
    ensures r.status.Ok? <==>
              Genuine(s, c) && user != SystemUserName && SysHolds(s, c.user, SystemPermission.AlterUser) && Known(s, user)
    ensures r.status.Ok? ==> r.after == s.(authz := s.authz.(auths := s.authz.auths[user := a]))
    ensures r.status.Fail? ==> r.after == s
    ensures Genuine(s, c) && (user == SystemUserName || !SysHolds(s, c.user, SystemPermission.AlterUser)) ==>
              r.status == Fail(SecurityError(c.user, PermissionDenied))
    ensures Genuine(s, c) && user != SystemUserName && SysHolds(s, c.user, SystemPermission.AlterUser) && !Known(s, user) ==>
              r.status == Fail(SecurityError(user, UserDoesntExist))
  {
    var gate := Permit(CanChangeAuthorizations(s, c, user), c);
    if gate.Fail? then Step(s, gate)
    else
      var target := TargetUserExists(s, user);
      if target.Fail? then Step(s, target)
      else Step(s.(authz := Authorizor.ChangeAuthorizations(s.authz, user, a)), Ok(()))
  }

  /** No existence check of its own: an unknown target is refused by the backend. */
  function ChangePassword(s: Security, c: Credentials, user: UserName, password: Bytes): (r: Step)
    ensures RejectsUnauthenticated(s, c, r)
    ensures r.status.Ok? <==>
              && Genuine(s, c) && user != SystemUserName
              && (c.user == user || SysHolds(s, c.user, SystemPermission.AlterTable))
              && user in s.authn.passwords
    ensures r.status.Ok? ==> r.after == s.(authn := s.authn.(passwords := s.authn.passwords[user := password]))
    ensures r.status.Fail? ==> r.after == s
    ensures Genuine(s, c) && (user == SystemUserName || (c.user != user && !SysHolds(s, c.user, SystemPermission.AlterTable))) ==>
              r.status == Fail(SecurityError(c.user, PermissionDenied))
    ensures Genuine(s, c) && user != SystemUserName && c.user == user ==> r.status.Ok?
  {
    var gate := Permit(CanChangePassword(s, c, user), c);
    if gate.Fail? then Step(s, gate)
    else
      var changed := Translate(Authenticator.ChangePassword(s.authn, user, password), user);
      if changed.Fail? then Step(s, changed.PropagateFailure())
      else Step(s.(authn := changed.value), Ok(()))
  }

  /** Creates the identity and an empty permission record; the requested
      authorizations are applied only if the caller may also change them. */
  function CreateUser(s: Security, c: Credentials, user: UserName, password: Bytes, a: Authorizations): (r: Step)
    ensures RejectsUnauthenticated(s, c, r)
    ensures r.status.Ok? <==>
              && Genuine(s, c) && user != SystemUserName
              && SysHolds(s, c.user, SystemPermission.CreateUser)
              && user !in s.authn.passwords
    ensures r.status.Fail? ==> r.after == s
    ensures r.status.Ok? ==>
              && r.after.env == s.env
              && r.after.authn.passwords == s.authn.passwords[user := password]
              && user in r.after.authz.auths
              && r.after.authz.auths[user] == (if SysHolds(s, c.user, SystemPermission.AlterUser) then a else {})
              && Authorizor.NoPermissions(r.after.authz, user)
              && r.after.authz.tables == s.authz.tables
              && (forall u, p :: u != user ==> ((u, p) in r.after.authz.sysPerms <==> (u, p) in s.authz.sysPerms))
              && (forall u, t, p :: u != user ==> ((u, t, p) in r.after.authz.tablePerms <==> (u, t, p) in s.authz.tablePerms))
              && (forall u :: u != user ==> (u in r.after.authz.auths <==> u in s.authz.auths))
              && (forall u :: u != user && u in r.after.authz.auths ==> r.after.authz.auths[u] == s.authz.auths[u])
    ensures Genuine(s, c) && user == SystemUserName ==> r.status == Fail(SecurityError(user, PermissionDenied))
    ensures Genuine(s, c) && user != SystemUserName && !SysHolds(s, c.user, SystemPermission.CreateUser) ==>
              r.status == Fail(SecurityError(c.user, PermissionDenied))
    ensures Genuine(s, c) && user != SystemUserName && SysHolds(s, c.user, SystemPermission.CreateUser)
            && user in s.authn.passwords ==>
              r.status == Fail(SecurityError(user, ErrorCode.UserExists))
  {
    var gate := Permit(CanCreateUser(s, c, user), c);
    if gate.Fail? then Step(s, gate)
    else
      var created := Translate(Authenticator.CreateUser(s.authn, user, password), user);
      if created.Fail? then Step(s, created.PropagateFailure())
      else
        var s1 := s.(authn := created.value, authz := Authorizor.InitUser(s.authz, user));
        match CanChangeAuthorizations(s1, c, user)
        case Fail(e) => Step(s1, Fail(e))
        case Ok(may) =>
          if may then Step(s1.(authz := Authorizor.ChangeAuthorizations(s1.authz, user, a)), Ok(()))
          else Step(s1, Ok(()))
  }

  /** The permission record is dropped before the identity; if the identity
      backend then refuses, the permission record stays dropped. */
  function DropUser(s: Security, c: Credentials, user: UserName): (r: Step)
    ensures RejectsUnauthenticated(s, c, r)
    ensures r.status.Ok? <==>
              && Genuine(s, c) && user != s.env.rootUser && user != SystemUserName
              && SysHolds(s, c.user, SystemPermission.DropUser)
              && user in s.authn.passwords
    ensures r.status.Ok? ==>
              && r.after.authn.passwords == s.authn.passwords - {user}
              && user !in r.after.authz.auths
              && Authorizor.NoPermissions(r.after.authz, user)
              && r.after.env == s.env
              && r.after.authz.tables == s.authz.tables
              && (forall u, p :: u != user ==> ((u, p) in r.after.authz.sysPerms <==> (u, p) in s.authz.sysPerms))
              && (forall u, t, p :: u != user ==> ((u, t, p) in r.after.authz.tablePerms <==> (u, t, p) in s.authz.tablePerms))
              && (forall u :: u != user ==> (u in r.after.authz.auths <==> u in s.authz.auths))
              && (forall u :: u != user && u in r.after.authz.auths ==> r.after.authz.auths[u] == s.authz.auths[u])
    ensures r.status.Fail? ==> r.after.authn == s.authn && r.after.env == s.env
    ensures r.status.Fail? && user in s.authn.passwords ==> r.after == s
    ensures Genuine(s, c) && (user == s.env.rootUser || user == SystemUserName) ==>
              r == Step(s, Fail(SecurityError(user, PermissionDenied)))
    ensures Genuine(s, c) && user != s.env.rootUser && user != SystemUserName
            && !SysHolds(s, c.user, SystemPermission.DropUser) ==>
              r == Step(s, Fail(SecurityError(c.user, PermissionDenied)))
  {
    var gate := Permit(CanDropUser(s, c, user), c);
    if gate.Fail? then Step(s, gate)
    else
      var s1 := s.(authz := Authorizor.DropUser(s.authz, user));
      var dropped := Translate(Authenticator.DropUser(s.authn, user), user);
      if dropped.Fail? then Step(s1, dropped.PropagateFailure())
      else Step(s1.(authn := dropped.value), Ok(()))
  }

  function GrantSystemPermission(s: Security, c: Credentials, user: UserName, p: SystemPermission): (r: Step)
    ensures RejectsUnauthenticated(s, c, r)
    ensures r.status.Ok? <==>
              && Genuine(s, c) && user != SystemUserName && p != SystemPermission.Grant
              && SysHolds(s, c.user, SystemPermission.Grant) && Known(s, user)
    ensures r.status.Ok? ==>
              && r.after.authz.(sysPerms := s.authz.sysPerms) == s.authz
              && r.after.authn == s.authn && r.after.env == s.env
              && forall u, q :: (u, q) in r.after.authz.sysPerms <==> (u, q) in s.authz.sysPerms || (u == user && q == p)
    ensures r.status.Fail? ==> r.after == s
    ensures Genuine(s, c) && user == SystemUserName ==> r.status == Fail(SecurityError(c.user, PermissionDenied))
    ensures Genuine(s, c) && user != SystemUserName && p == SystemPermission.Grant ==>
              r.status == Fail(SecurityError(c.user, GrantInvalid))
    ensures Genuine(s, c) && user != SystemUserName && p != SystemPermission.Grant
            && !SysHolds(s, c.user, SystemPermission.Grant) ==>
              r.status == Fail(SecurityError(c.user, PermissionDenied))
    ensures Genuine(s, c) && user != SystemUserName && p != SystemPermission.Grant
            && SysHolds(s, c.user, SystemPermission.Grant) && !Known(s, user) ==>
              r.status == Fail(SecurityError(user, UserDoesntExist))
  {
    var gate := Permit(CanGrantSystem(s, c, user, p), c);
    if gate.Fail? then Step(s, gate)
    else
      var target := TargetUserExists(s, user);
      if target.Fail? then Step(s, target)
      else Step(s.(authz := Authorizor.GrantSystemPermission(s.authz, user, p)), Ok(()))
  }

  function RevokeSystemPermission(s: Security, c: Credentials, user: UserName, p: SystemPermission): (r: Step)
    ensures RejectsUnauthenticated(s, c, r)
    ensures r.status.Ok? <==>
              && Genuine(s, c) && user != s.env.rootUser && user != SystemUserName && p != SystemPermission.Grant
              && SysHolds(s, c.user, SystemPermission.Grant) && Known(s, user)
    ensures r.status.Ok? ==>
              && r.after.authz.(sysPerms := s.authz.sysPerms) == s.authz
              && r.after.authn == s.authn && r.after.env == s.env
              && forall u, q :: (u, q) in r.after.authz.sysPerms <==> (u, q) in s.authz.sysPerms && !(u == user && q == p)
    ensures r.status.Fail? ==> r.after == s
    ensures Genuine(s, c) && (user == s.env.rootUser || user == SystemUserName) ==>
              r.status == Fail(SecurityError(c.user, PermissionDenied))
    ensures Genuine(s, c) && user != s.env.rootUser && user != SystemUserName && p == SystemPermission.Grant ==>
              r.status == Fail(SecurityError(c.user, GrantInvalid))
    ensures Genuine(s, c) && user != s.env.rootUser && user != SystemUserName && p != SystemPermission.Grant
            && !SysHolds(s, c.user, SystemPermission.Grant) ==>
              r.status == Fail(SecurityError(c.user, PermissionDenied))
    ensures Genuine(s, c) && user != s.env.rootUser && user != SystemUserName && p != SystemPermission.Grant
            && SysHolds(s, c.user, SystemPermission.Grant) && !Known(s, user) ==>
              r.status == Fail(SecurityError(user, UserDoesntExist))
  {
    var gate := Permit(CanRevokeSystem(s, c, user, p), c);
    if gate.Fail? then Step(s, gate)
    else
      var target := TargetUserExists(s, user);
      if target.Fail? then Step(s, target)
      else Step(s.(authz := Authorizor.RevokeSystemPermission(s.authz, user, p)), Ok(()))
  }

  function GrantTablePermission(s: Security, c: Credentials, user: UserName, table: TableId, p: TablePermission): (r: Step)
    ensures RejectsUnauthenticated(s, c, r)
    ensures r.status.Ok? <==>
              && Genuine(s, c) && user != SystemUserName
              && (SysHolds(s, c.user, SystemPermission.AlterTable) || TabHolds(s, c.user, table, TablePermission.Grant))
              && Known(s, user) && table in s.authz.tables
    ensures r.status.Ok? ==>
              && r.after.authz.(tablePerms := s.authz.tablePerms) == s.authz
              && r.after.authn == s.authn && r.after.env == s.env
              && forall u, t, q :: (u, t, q) in r.after.authz.tablePerms <==>
                                   (u, t, q) in s.authz.tablePerms || (u == user && t == table && q == p)
    ensures r.status.Fail? ==> r.after == s
    ensures Genuine(s, c) && user == SystemUserName ==> r.status == Fail(SecurityError(c.user, PermissionDenied))
    ensures Genuine(s, c) && user != SystemUserName && Known(s, user) && table !in s.authz.tables ==>
              r.status == Fail(SecurityError(c.user, TableDoesntExist))
    ensures Genuine(s, c) && user != SystemUserName && table !in s.authz.tables
            && !SysHolds(s, c.user, SystemPermission.AlterTable) ==>
              r.status == Fail(SecurityError(c.user, TableDoesntExist))
    ensures Genuine(s, c) && user != SystemUserName && table in s.authz.tables
            && !SysHolds(s, c.user, SystemPermission.AlterTable) && !TabHolds(s, c.user, table, TablePermission.Grant) ==>
              r.status == Fail(SecurityError(c.user, PermissionDenied))
    ensures Genuine(s, c) && user != SystemUserName
            && (SysHolds(s, c.user, SystemPermission.AlterTable) || TabHolds(s, c.user, table, TablePermission.Grant))
            && !Known(s, user) ==>
              r.status == Fail(SecurityError(user, UserDoesntExist))
  {
    var gate := Permit(CanGrantTable(s, c, user, table), c);
    if gate.Fail? then Step(s, gate)
    else
      var target := TargetUserExists(s, user);
      if target.Fail? then Step(s, target)
      else
        var granted := Translate(Authorizor.GrantTablePermission(s.authz, user, table, p), c.user);
        if granted.Fail? then Step(s, granted.PropagateFailure())
        else Step(s.(authz := granted.value), Ok(()))
  }

  function RevokeTablePermission(s: Security, c: Credentials, user: UserName, table: TableId, p: TablePermission): (r: Step)
    ensures RejectsUnauthenticated(s, c, r)
    ensures r.status.Ok? <==>
              && Genuine(s, c) && user != SystemUserName
              && (SysHolds(s, c.user, SystemPermission.AlterTable) || TabHolds(s, c.user, table, TablePermission.Grant))
              && Known(s, user) && table in s.authz.tables
    ensures r.status.Ok? ==>
              && r.after.authz.(tablePerms := s.authz.tablePerms) == s.authz
              && r.after.authn == s.authn && r.after.env == s.env
              && forall u, t, q :: (u, t, q) in r.after.authz.tablePerms <==>
                                   (u, t, q) in s.authz.tablePerms && !(u == user && t == table && q == p)
    ensures r.status.Fail? ==> r.after == s
    ensures Genuine(s, c) && user == SystemUserName ==> r.status == Fail(SecurityError(c.user, PermissionDenied))
    ensures Genuine(s, c) && user != SystemUserName && Known(s, user) && table !in s.authz.tables ==>
              r.status == Fail(SecurityError(c.user, TableDoesntExist))
    ensures Genuine(s, c) && user != SystemUserName && table !in s.authz.tables
            && !SysHolds(s, c.user, SystemPermission.AlterTable) ==>
              r.status == Fail(SecurityError(c.user, TableDoesntExist))
    ensures Genuine(s, c) && user != SystemUserName && table in s.authz.tables
            && !SysHolds(s, c.user, SystemPermission.AlterTable) && !TabHolds(s, c.user, table, TablePermission.Grant) ==>
              r.status == Fail(SecurityError(c.user, PermissionDenied))
    ensures Genuine(s, c) && user != SystemUserName
            && (SysHolds(s, c.user, SystemPermission.AlterTable) || TabHolds(s, c.user, table, TablePermission.Grant))
            && !Known(s, user) ==>
              r.status == Fail(SecurityError(user, UserDoesntExist))
  {
    var gate := Permit(CanRevokeTable(s, c, user, table), c);
    if gate.Fail? then Step(s, gate)
    else
      var target := TargetUserExists(s, user);
      if target.Fail? then Step(s, target)
      else
        var revoked := Translate(Authorizor.RevokeTablePermission(s.authz, user, table, p), c.user);
        if revoked.Fail? then Step(s, revoked.PropagateFailure())
        else Step(s.(authz := revoked.value), Ok(()))
  }

  /** The permission side of dropping a table: every grant on it is forgotten. */
  function DeleteTable(s: Security, c: Credentials, table: TableId): (r: Step)
    ensures RejectsUnauthenticated(s, c, r)
    ensures r.status.Ok? <==>
              && Genuine(s, c)
              && (SysHolds(s, c.user, SystemPermission.DropTable) || TabHolds(s, c.user, table, TablePermission.DropTable))
              && table in s.authz.tables
    ensures r.status.Ok? ==>
              && r.after.authz.(tablePerms := s.authz.tablePerms) == s.authz
              && r.after.authn == s.authn && r.after.env == s.env
              && forall u, t, q :: (u, t, q) in r.after.authz.tablePerms <==> (u, t, q) in s.authz.tablePerms && t != table
    ensures r.status.Fail? ==> r.after == s
    ensures Genuine(s, c) && table !in s.authz.tables ==> r.status == Fail(SecurityError(c.user, TableDoesntExist))
    ensures Genuine(s, c) && table in s.authz.tables
            && !(SysHolds(s, c.user, SystemPermission.DropTable) || TabHolds(s, c.user, table, TablePermission.DropTable)) ==>
              r.status == Fail(SecurityError(c.user, PermissionDenied))
  {
    var gate := Permit(CanDeleteTable(s, c, table), c);
    if gate.Fail? then Step(s, gate)
    else
      match Authorizor.CleanTablePermissions(s.authz, table)
      case Done(z) => Step(s.(authz := z), Ok(()))
      case Refused(e) => Step(s, Fail(e.(user := c.user)))
      case TableNotFound => Step(s, Fail(SecurityError(c.user, TableDoesntExist)))
  }
}

=== FILE: hardening.dfy ===
/** Two places where SecurityOperationImpl protects only the system identity
    as a target, while its sibling checks protect root as well: `canDropUser`
    refuses root and the system identity alike, and `canRevokeSystem` refuses
    to modify either. Each case has a lemma exhibiting the behaviour as
    written, and a guarded variant of the operation with root protected in the
    same way, with that protection proved about it. */
module Hardening {
  import opened Types
  import opened Engine
  import opened Oracle
  import Gateway

  /** As written: a user other than root who holds system ALTER_TABLE can
      reset root's password, after which root's old password is refused. */
  lemma AlterTableHolderResetsRootPassword(s: Security, c: Credentials, password: Bytes)
    requires Genuine(s, c) && c.user != s.env.rootUser && c.user != SystemUserName
    requires (c.user, SystemPermission.AlterTable) in s.authz.sysPerms
    requires s.env.rootUser != SystemUserName && s.env.rootUser in s.authn.passwords
    requires password != s.authn.passwords[s.env.rootUser]
    ensures var r := Gateway.ChangePassword(s, c, s.env.rootUser, password);
            && r.status.Ok?
            && Authenticate(r.after, Credentials(s.env.rootUser, s.authn.passwords[s.env.rootUser], s.env.localInstance))
               == Fail(SecurityError(s.env.rootUser, BadCredentials))
  {
  }

  /** `changePassword` with root's credential reserved to root itself. */
  function ChangePasswordGuarded(s: Security, c: Credentials, user: UserName, password: Bytes): (r: Step)
    ensures Gateway.RejectsUnauthenticated(s, c, r)
    ensures Genuine(s, c) && user == s.env.rootUser && c.user != user ==>
              r == Step(s, Fail(SecurityError(c.user, PermissionDenied)))
    ensures user != s.env.rootUser || c.user == user ==> r == Gateway.ChangePassword(s, c, user, password)
  {
    match Authenticate(s, c)
    case Fail(e) => Step(s, Fail(e))
    case Ok(_) =>
      if user == s.env.rootUser && c.user != user then Step(s, Fail(SecurityError(c.user, PermissionDenied)))
      else Gateway.ChangePassword(s, c, user, password)
  }

  /** Intended: nobody but root changes root's password, and root still can. */
  lemma RootPasswordOnlyBySelf(s: Security, c: Credentials, password: Bytes)
    ensures c.user != s.env.rootUser ==> ChangePasswordGuarded(s, c, s.env.rootUser, password).after == s
    ensures c.user == s.env.rootUser && Genuine(s, c) && s.env.rootUser != SystemUserName ==>
              ChangePasswordGuarded(s, c, s.env.rootUser, password).status.Ok?
  {
  }

  /** As written: a holder of system ALTER_TABLE can revoke a table permission
      of root, such as the ALTER_TABLE on the metadata table that
      `initializeSecurity` grants it. */
  lemma AlterTableHolderRevokesRootTablePermission(s: Security, c: Credentials, table: TableId, p: TablePermission)
    requires Genuine(s, c) && SysHolds(s, c.user, SystemPermission.AlterTable)
    requires s.env.rootUser != SystemUserName
    requires table in s.authz.tables && (s.env.rootUser, table, p) in s.authz.tablePerms
    ensures var r := Gateway.RevokeTablePermission(s, c, s.env.rootUser, table, p);
            && r.status.Ok?
            && (s.env.rootUser, table, p) !in r.after.authz.tablePerms
  {
  }

  /** `revokeTablePermission` with root protected like the system identity. */
  function RevokeTablePermissionGuarded(s: Security, c: Credentials, user: UserName, table: TableId, p: TablePermission): (r: Step)
    ensures Gateway.RejectsUnauthenticated(s, c, r)
    ensures Genuine(s, c) && user == s.env.rootUser ==> r == Step(s, Fail(SecurityError(c.user, PermissionDenied)))
    ensures user != s.env.rootUser ==> r == Gateway.RevokeTablePermission(s, c, user, table, p)
  {
    match Authenticate(s, c)
    case Fail(e) => Step(s, Fail(e))
    case Ok(_) =>
      if user == s.env.rootUser then Step(s, Fail(SecurityError(c.user, PermissionDenied)))
      else Gateway.RevokeTablePermission(s, c, user, table, p)
  }

  /** Intended: no caller takes a table permission away from root. */
  lemma RootTablePermissionsKept(s: Security, c: Credentials, table: TableId, p: TablePermission)
    ensures RevokeTablePermissionGuarded(s, c, s.env.rootUser, table, p).after == s
    ensures RevokeTablePermissionGuarded(s, c, s.env.rootUser, table, p).status.Fail?
  {
  }
}

=== FILE: oracle.dfy ===
/** Credential verification and the permission oracle: `authenticate`, the
    private `hasSystemPermission` / `hasTablePermission` and `targetUserExists`
    of SecurityOperationImpl, next to the plain set-membership reading of who
    holds what that their contracts are stated against. */
module Oracle {
  import opened Types
  import opened Engine
  import Authenticator
  import Authorizor

  // ---------------------------------------------------------------------
  // Reference definitions
  // ---------------------------------------------------------------------

  /** The presented secret and instance are those of the system credential. */
  predicate SystemCredentialMatch(env: Env, c: Credentials) {
    c.password == env.systemCredentials.password && c.instanceId == env.systemCredentials.instanceId
  }

  /** `c` is a genuine credential of this instance. */
  predicate Genuine(s: Security, c: Credentials) {
    && c.instanceId == s.env.localInstance
    && if c.user == SystemUserName then SystemCredentialMatch(s.env, c)
       else c.user in s.authn.passwords && s.authn.passwords[c.user] == c.password
  }

  /** `user` is an identity the core considers to exist. */
  predicate Known(s: Security, user: UserName) {
    user == SystemUserName || user == s.env.rootUser || user in s.authn.passwords
  }

  /** `user` holds system permission `p`: root and the system identity hold all. */
  predicate SysHolds(s: Security, user: UserName, p: SystemPermission) {
    user == s.env.rootUser || user == SystemUserName || (user, p) in s.authz.sysPerms
  }

  /** `user` holds `p` on `table`: the system identity holds all, everyone may
      read the metadata table, anyone else needs a grant on an existing table. */
  predicate TabHolds(s: Security, user: UserName, table: TableId, p: TablePermission) {
    || user == SystemUserName
    || (table == MetadataTableId && p == TablePermission.Read)
    || (table in s.authz.tables && (user, table, p) in s.authz.tablePerms)
  }

  // ---------------------------------------------------------------------
  // Credential verification
  // ---------------------------------------------------------------------

  /** `Arrays.equals` on the password bytes: equal lengths, then element by
      element from the front. */
  function PasswordBytesEqual(a: Bytes, b: Bytes): (eq: bool)
    ensures eq <==> a == b
  {
    if |a| != |b| then false
    else if |a| == 0 then true
    else a[0] == b[0] && PasswordBytesEqual(a[1..], b[1..])
  }

  /** Verify a credential: the instance is checked first; the system identity is
      checked against the system credential only; all others go to the backend. */
  function Authenticate(s: Security, c: Credentials): (r: Result<()>)
    ensures c.instanceId != s.env.localInstance ==> r == Fail(SecurityError(c.user, InvalidInstanceId))
    ensures c.instanceId == s.env.localInstance && c.user == SystemUserName ==>
              (r.Ok? <==> SystemCredentialMatch(s.env, c))
    ensures r.Ok? <==> Genuine(s, c)
    ensures r.Fail? && c.instanceId == s.env.localInstance ==> r.error == SecurityError(c.user, BadCredentials)
    ensures r.Ok? ==> Known(s, c.user)
  {
    if c.instanceId != s.env.localInstance then
      Fail(SecurityError(c.user, InvalidInstanceId))
    else if c.user == SystemUserName then
      if PasswordBytesEqual(s.env.systemCredentials.password, c.password)
         && c.instanceId == s.env.systemCredentials.instanceId
      then Ok(())
      else Fail(SecurityError(c.user, BadCredentials))
    else if Authenticator.AuthenticateUser(s.authn, c.user, c.password, c.instanceId) then
      Ok(())
    else
      Fail(SecurityError(c.user, BadCredentials))
  }

  // ---------------------------------------------------------------------
  // Permission oracle
  // ---------------------------------------------------------------------

  function TargetUserExists(s: Security, user: UserName): (r: Result<()>)
    ensures r.Ok? <==> Known(s, user)
    ensures r.Fail? ==> r.error == SecurityError(user, UserDoesntExist)
  {
    if user == SystemUserName || user == s.env.rootUser then Ok(())
    else if !Authenticator.UserExists(s.authn, user) then Fail(SecurityError(user, UserDoesntExist))
    else Ok(())
  }

  /** The private `hasSystemPermission`. */
  function HasSystemPermission(s: Security, user: UserName, p: SystemPermission): (r: Result<bool>)
    ensures user == s.env.rootUser || user == SystemUserName ==> r == Ok(true)
    ensures r.Ok? <==> Known(s, user)
    ensures r.Fail? ==> r.error == SecurityError(user, UserDoesntExist)
    ensures r.Ok? ==> (r.value <==> SysHolds(s, user, p))
  {
    if user == s.env.rootUser || user == SystemUserName then Ok(true)
    else
      var _ :- TargetUserExists(s, user);
      Ok(Authorizor.HasSystemPermission(s.authz, user, p))
  }

  /** The private `hasTablePermission`: the existence check comes before the
      metadata-table shortcut. */
  function HasTablePermission(s: Security, user: UserName, table: TableId, p: TablePermission): (r: Result<bool>)
    ensures user == SystemUserName ==> r == Ok(true)
    ensures !Known(s, user) ==> r == Fail(SecurityError(user, UserDoesntExist))
    ensures Known(s, user) && table == MetadataTableId && p == TablePermission.Read ==> r == Ok(true)
    ensures Known(s, user) && table in s.authz.tables ==> r.Ok?
    ensures Known(s, user) && r.Fail? ==> r.error == SecurityError(user, TableDoesntExist)
    ensures Known(s, user) && user != SystemUserName && table !in s.authz.tables
            && !(table == MetadataTableId && p == TablePermission.Read) ==>
              r == Fail(SecurityError(user, TableDoesntExist))
    ensures r.Ok? ==> (r.value <==> TabHolds(s, user, table, p))
  {
    if user == SystemUserName then Ok(true)
    else
      var _ :- TargetUserExists(s, user);
      if table == MetadataTableId && p == TablePermission.Read then Ok(true)
      else
        match Authorizor.HasTablePermission(s.authz, user, table, p)
        case Done(b) => Ok(b)
        case Refused(e) => Fail(e)
        case TableNotFound => Fail(SecurityError(user, TableDoesntExist))
  }

  // ---------------------------------------------------------------------
  // Short-circuit evaluation of `||` and `&&` over calls that may throw
  // ---------------------------------------------------------------------

  function Or(a: Result<bool>, b: Result<bool>): Result<bool> {
    if a.Fail? then a else if a.value then Ok(true) else b
  }

  function And(a: Result<bool>, b: Result<bool>): Result<bool> {
    if a.Fail? then a else if !a.value then Ok(false) else b
  }
}

=== FILE: policy.dfy ===
/** The policy matrix: every `canX` predicate of SecurityOperationImpl, plus the
    public `hasSystemPermission` / `hasTablePermission`. The public
    `hasSystemPermission` and `canAskAboutOtherUsers` are mutually recursive,
    as in the source; the public `hasTablePermission` only calls
    `canAskAboutOtherUsers`. Each contract states the decision in terms of the
    set-membership reading of the backends (`SysHolds`, `TabHolds`) and says
    which exception comes out when. */
module Policy {
  import opened Types
  import opened Engine
  import opened Oracle

  // ---------------------------------------------------------------------
  // Contract shapes shared by the predicates
  // ---------------------------------------------------------------------

  /** Authentication comes first: a credential that fails it fails the call
      with the same exception. */
  ghost predicate AuthenticatedFirst<T>(s: Security, c: Credentials, r: Result<T>) {
    Authenticate(s, c).Fail? ==> r == Fail(Authenticate(s, c).error)
  }

  /** A decision on system permissions only: once authenticated, never throws. */
  ghost predicate SystemRule(s: Security, c: Credentials, r: Result<bool>, verdict: bool) {
    && AuthenticatedFirst(s, c, r)
    && (Genuine(s, c) ==> r == Ok(verdict))
  }

  /** A decision that consults `table`: once authenticated it can only throw
      TABLE_DOESNT_EXIST, and never does when the table exists or the caller is
      the system identity. */
  ghost predicate TableLookup(s: Security, c: Credentials, table: TableId, r: Result<bool>, verdict: bool) {
    && AuthenticatedFirst(s, c, r)
    && (Genuine(s, c) && table in s.authz.tables ==> r.Ok?)
    && (Genuine(s, c) && c.user == SystemUserName ==> r.Ok?)
    && (Genuine(s, c) && r.Fail? ==> r.error == SecurityError(c.user, TableDoesntExist))
    && (r.Ok? ==> r.value == verdict)
  }

  /** A disjunction that consults `table`: besides `TableLookup`, a missing
      table never yields a plain "no" -- the answer is "yes" through a
      shortcut, or TABLE_DOESNT_EXIST. */
  ghost predicate TableRule(s: Security, c: Credentials, table: TableId, r: Result<bool>, verdict: bool) {
    && TableLookup(s, c, table, r, verdict)
    && (Genuine(s, c) && table !in s.authz.tables && r.Ok? ==> r.value)
  }

  // ---------------------------------------------------------------------
  // Table actions
  // ---------------------------------------------------------------------

  function CanScan(s: Security, c: Credentials, table: TableId): (r: Result<bool>)
    ensures TableRule(s, c, table, r, TabHolds(s, c.user, table, TablePermission.Read))
  {
    var _ :- Authenticate(s, c);
    HasTablePermission(s, c.user, table, TablePermission.Read)
  }

  function CanWrite(s: Security, c: Credentials, table: TableId): (r: Result<bool>)
    ensures TableRule(s, c, table, r, TabHolds(s, c.user, table, TablePermission.Write))
  {
    var _ :- Authenticate(s, c);
    HasTablePermission(s, c.user, table, TablePermission.Write)
  }

  function CanSplitTablet(s: Security, c: Credentials, table: TableId): (r: Result<bool>)
    ensures TableRule(s, c, table, r,
      SysHolds(s, c.user, SystemPermission.AlterTable) || SysHolds(s, c.user, SystemPermission.System)
      || TabHolds(s, c.user, table, TablePermission.AlterTable))
    ensures Genuine(s, c) && (SysHolds(s, c.user, SystemPermission.AlterTable) || SysHolds(s, c.user, SystemPermission.System)) ==>
              r == Ok(true)
  {
    var _ :- Authenticate(s, c);
    Or(HasSystemPermission(s, c.user, SystemPermission.AlterTable),
       Or(HasSystemPermission(s, c.user, SystemPermission.System),
          HasTablePermission(s, c.user, table, TablePermission.AlterTable)))
  }

  /** Loading tablets, shutting down, changing system properties. */
  function CanPerformSystemActions(s: Security, c: Credentials): (r: Result<bool>)
    ensures SystemRule(s, c, r, SysHolds(s, c.user, SystemPermission.System))
  {
    var _ :- Authenticate(s, c);
    HasSystemPermission(s, c.user, SystemPermission.System)
  }

  function CanFlush(s: Security, c: Credentials, table: TableId): (r: Result<bool>)
    ensures TableRule(s, c, table, r,
      TabHolds(s, c.user, table, TablePermission.Write) || TabHolds(s, c.user, table, TablePermission.AlterTable))
  {
    var _ :- Authenticate(s, c);
    Or(HasTablePermission(s, c.user, table, TablePermission.Write),
       HasTablePermission(s, c.user, table, TablePermission.AlterTable))
  }

  /** The table permission is asked first, so a missing table throws even for
      a caller holding system ALTER_TABLE. */
  function CanAlterTable(s: Security, c: Credentials, table: TableId): (r: Result<bool>)
    ensures TableRule(s, c, table, r,
      TabHolds(s, c.user, table, TablePermission.AlterTable) || SysHolds(s, c.user, SystemPermission.AlterTable))
    ensures Genuine(s, c) && c.user != SystemUserName && table !in s.authz.tables ==>
              r == Fail(SecurityError(c.user, TableDoesntExist))
  {
    var _ :- Authenticate(s, c);
    Or(HasTablePermission(s, c.user, table, TablePermission.AlterTable),
       HasSystemPermission(s, c.user, SystemPermission.AlterTable))
  }

  function CanCreateTable(s: Security, c: Credentials): (r: Result<bool>)
    ensures SystemRule(s, c, r, SysHolds(s, c.user, SystemPermission.CreateTable))
  {
    var _ :- Authenticate(s, c);
    HasSystemPermission(s, c.user, SystemPermission.CreateTable)
  }

  function CanRenameTable(s: Security, c: Credentials, table: TableId): (r: Result<bool>)
    ensures TableRule(s, c, table, r,
      SysHolds(s, c.user, SystemPermission.AlterTable) || TabHolds(s, c.user, table, TablePermission.AlterTable))
    ensures Genuine(s, c) && SysHolds(s, c.user, SystemPermission.AlterTable) ==> r == Ok(true)
  {
    var _ :- Authenticate(s, c);
    Or(HasSystemPermission(s, c.user, SystemPermission.AlterTable),
       HasTablePermission(s, c.user, table, TablePermission.AlterTable))
  }

  /** The one conjunction of the matrix: system CREATE_TABLE and table READ. */
  function CanCloneTable(s: Security, c: Credentials, table: TableId): (r: Result<bool>)
    ensures TableLookup(s, c, table, r,
      SysHolds(s, c.user, SystemPermission.CreateTable) && TabHolds(s, c.user, table, TablePermission.Read))
    ensures Genuine(s, c) && !SysHolds(s, c.user, SystemPermission.CreateTable) ==> r == Ok(false)
    ensures Genuine(s, c) && c.user != SystemUserName && SysHolds(s, c.user, SystemPermission.CreateTable)
            && table !in s.authz.tables && table != MetadataTableId ==>
              r == Fail(SecurityError(c.user, TableDoesntExist))
    ensures Genuine(s, c) && SysHolds(s, c.user, SystemPermission.CreateTable) && table == MetadataTableId ==> r == Ok(true)
  {
    var _ :- Authenticate(s, c);
    And(HasSystemPermission(s, c.user, SystemPermission.CreateTable),
        HasTablePermission(s, c.user, table, TablePermission.Read))
  }

  function CanDeleteTable(s: Security, c: Credentials, table: TableId): (r: Result<bool>)
    ensures TableRule(s, c, table, r,
      SysHolds(s, c.user, SystemPermission.DropTable) || TabHolds(s, c.user, table, TablePermission.DropTable))
    ensures Genuine(s, c) && SysHolds(s, c.user, SystemPermission.DropTable) ==> r == Ok(true)
  {
    var _ :- Authenticate(s, c);
    Or(HasSystemPermission(s, c.user, SystemPermission.DropTable),
       HasTablePermission(s, c.user, table, TablePermission.DropTable))
  }

  function CanOnlineOfflineTable(s: Security, c: Credentials, table: TableId): (r: Result<bool>)
    ensures TableRule(s, c, table, r,
      SysHolds(s, c.user, SystemPermission.System) || SysHolds(s, c.user, SystemPermission.AlterTable)
      || TabHolds(s, c.user, table, TablePermission.AlterTable))
    ensures Genuine(s, c) && (SysHolds(s, c.user, SystemPermission.System) || SysHolds(s, c.user, SystemPermission.AlterTable)) ==>
              r == Ok(true)
  {
    var _ :- Authenticate(s, c);
    Or(HasSystemPermission(s, c.user, SystemPermission.System),
       Or(HasSystemPermission(s, c.user, SystemPermission.AlterTable),
          HasTablePermission(s, c.user, table, TablePermission.AlterTable)))
  }

  function CanMerge(s: Security, c: Credentials, table: TableId): (r: Result<bool>)
    ensures TableRule(s, c, table, r,
      SysHolds(s, c.user, SystemPermission.System) || SysHolds(s, c.user, SystemPermission.AlterTable)
      || TabHolds(s, c.user, table, TablePermission.AlterTable))
    ensures Genuine(s, c) && (SysHolds(s, c.user, SystemPermission.System) || SysHolds(s, c.user, SystemPermission.AlterTable)) ==>
              r == Ok(true)
  {
    var _ :- Authenticate(s, c);
    Or(HasSystemPermission(s, c.user, SystemPermission.System),
       Or(HasSystemPermission(s, c.user, SystemPermission.AlterTable),
          HasTablePermission(s, c.user, table, TablePermission.AlterTable)))
  }

  function CanDeleteRange(s: Security, c: Credentials, table: TableId): (r: Result<bool>)
    ensures TableRule(s, c, table, r,
      SysHolds(s, c.user, SystemPermission.System) || TabHolds(s, c.user, table, TablePermission.Write))
    ensures Genuine(s, c) && SysHolds(s, c.user, SystemPermission.System) ==> r == Ok(true)
  {
    var _ :- Authenticate(s, c);
    Or(HasSystemPermission(s, c.user, SystemPermission.System),
       HasTablePermission(s, c.user, table, TablePermission.Write))
  }

  function CanBulkImport(s: Security, c: Credentials, table: TableId): (r: Result<bool>)
    ensures TableRule(s, c, table, r, TabHolds(s, c.user, table, TablePermission.BulkImport))
  {
    var _ :- Authenticate(s, c);
    HasTablePermission(s, c.user, table, TablePermission.BulkImport)
  }

  function CanCompact(s: Security, c: Credentials, table: TableId): (r: Result<bool>)
    ensures TableRule(s, c, table, r,
      SysHolds(s, c.user, SystemPermission.AlterTable) || TabHolds(s, c.user, table, TablePermission.AlterTable)
      || TabHolds(s, c.user, table, TablePermission.Write))
    ensures Genuine(s, c) && SysHolds(s, c.user, SystemPermission.AlterTable) ==> r == Ok(true)
  {
    var _ :- Authenticate(s, c);
    Or(HasSystemPermission(s, c.user, SystemPermission.AlterTable),
       Or(HasTablePermission(s, c.user, table, TablePermission.AlterTable),
          HasTablePermission(s, c.user, table, TablePermission.Write)))
  }

  // ---------------------------------------------------------------------
  // User administration
  // ---------------------------------------------------------------------

  function CanChangeAuthorizations(s: Security, c: Credentials, user: UserName): (r: Result<bool>)
    ensures AuthenticatedFirst(s, c, r)
    ensures Genuine(s, c) && user == SystemUserName ==> r == Fail(SecurityError(c.user, PermissionDenied))
    ensures Genuine(s, c) && user != SystemUserName ==> r == Ok(SysHolds(s, c.user, SystemPermission.AlterUser))
  {
    var _ :- Authenticate(s, c);
    if user == SystemUserName then Fail(SecurityError(c.user, PermissionDenied))
    else HasSystemPermission(s, c.user, SystemPermission.AlterUser)
  }

  /** Self-service, or a caller holding system ALTER_TABLE (sic). */
  function CanChangePassword(s: Security, c: Credentials, user: UserName): (r: Result<bool>)
    ensures AuthenticatedFirst(s, c, r)
    ensures Genuine(s, c) && user == SystemUserName ==> r == Fail(SecurityError(c.user, PermissionDenied))
    ensures Genuine(s, c) && user != SystemUserName ==>
              r == Ok(c.user == user || SysHolds(s, c.user, SystemPermission.AlterTable))
  {
    var _ :- Authenticate(s, c);
    if user == SystemUserName then Fail(SecurityError(c.user, PermissionDenied))
    else if c.user == user then Ok(true)
    else HasSystemPermission(s, c.user, SystemPermission.AlterTable)
  }

  /** No user may be created under the system identity's name; the exception
      names the requested user, not the caller. */
  function CanCreateUser(s: Security, c: Credentials, user: UserName): (r: Result<bool>)
    ensures AuthenticatedFirst(s, c, r)
    ensures Genuine(s, c) && user == SystemUserName ==> r == Fail(SecurityError(user, PermissionDenied))
    ensures Genuine(s, c) && user != SystemUserName ==> r == Ok(SysHolds(s, c.user, SystemPermission.CreateUser))
  {
    var _ :- Authenticate(s, c);
    if user == SystemUserName then Fail(SecurityError(user, PermissionDenied))
    else HasSystemPermission(s, c.user, SystemPermission.CreateUser)
  }

  /** Root and the system identity can never be dropped, whoever asks. */
  function CanDropUser(s: Security, c: Credentials, user: UserName): (r: Result<bool>)
    ensures AuthenticatedFirst(s, c, r)
    ensures Genuine(s, c) && (user == s.env.rootUser || user == SystemUserName) ==>
              r == Fail(SecurityError(user, PermissionDenied))
    ensures Genuine(s, c) && user != s.env.rootUser && user != SystemUserName ==>
              r == Ok(SysHolds(s, c.user, SystemPermission.DropUser))
  {
    var _ :- Authenticate(s, c);
    if user == s.env.rootUser || user == SystemUserName then Fail(SecurityError(user, PermissionDenied))
    else HasSystemPermission(s, c.user, SystemPermission.DropUser)
  }

  /** The system identity is checked before GRANT itself. */
  function CanGrantSystem(s: Security, c: Credentials, user: UserName, p: SystemPermission): (r: Result<bool>)
    ensures AuthenticatedFirst(s, c, r)
    ensures Genuine(s, c) && user == SystemUserName ==> r == Fail(SecurityError(c.user, PermissionDenied))
    ensures Genuine(s, c) && user != SystemUserName && p == SystemPermission.Grant ==>
              r == Fail(SecurityError(c.user, GrantInvalid))
    ensures Genuine(s, c) && user != SystemUserName && p != SystemPermission.Grant ==>
              r == Ok(SysHolds(s, c.user, SystemPermission.Grant))
  {
    var _ :- Authenticate(s, c);
    if user == SystemUserName then Fail(SecurityError(c.user, PermissionDenied))
    else if p == SystemPermission.Grant then Fail(SecurityError(c.user, GrantInvalid))
    else HasSystemPermission(s, c.user, SystemPermission.Grant)
  }

  function CanGrantTable(s: Security, c: Credentials, user: UserName, table: TableId): (r: Result<bool>)
    ensures AuthenticatedFirst(s, c, r)
    ensures Genuine(s, c) && user == SystemUserName ==> r == Fail(SecurityError(c.user, PermissionDenied))
    ensures user != SystemUserName ==>
              TableRule(s, c, table, r,
                SysHolds(s, c.user, SystemPermission.AlterTable) || TabHolds(s, c.user, table, TablePermission.Grant))
    ensures Genuine(s, c) && user != SystemUserName && SysHolds(s, c.user, SystemPermission.AlterTable) ==> r == Ok(true)
  {
    var _ :- Authenticate(s, c);
    if user == SystemUserName then Fail(SecurityError(c.user, PermissionDenied))
    else Or(HasSystemPermission(s, c.user, SystemPermission.AlterTable),
            HasTablePermission(s, c.user, table, TablePermission.Grant))
  }

  /** Neither root nor the system identity can lose a system permission. */
  function CanRevokeSystem(s: Security, c: Credentials, user: UserName, p: SystemPermission): (r: Result<bool>)
    ensures AuthenticatedFirst(s, c, r)
    ensures Genuine(s, c) && (user == s.env.rootUser || user == SystemUserName) ==>
              r == Fail(SecurityError(c.user, PermissionDenied))
    ensures Genuine(s, c) && user != s.env.rootUser && user != SystemUserName && p == SystemPermission.Grant ==>
              r == Fail(SecurityError(c.user, GrantInvalid))
    ensures Genuine(s, c) && user != s.env.rootUser && user != SystemUserName && p != SystemPermission.Grant ==>
              r == Ok(SysHolds(s, c.user, SystemPermission.Grant))
  {
    var _ :- Authenticate(s, c);
    if user == s.env.rootUser || user == SystemUserName then Fail(SecurityError(c.user, PermissionDenied))
    else if p == SystemPermission.Grant then Fail(SecurityError(c.user, GrantInvalid))
    else HasSystemPermission(s, c.user, SystemPermission.Grant)
  }

  function CanRevokeTable(s: Security, c: Credentials, user: UserName, table: TableId): (r: Result<bool>)
    ensures AuthenticatedFirst(s, c, r)
    ensures Genuine(s, c) && user == SystemUserName ==> r == Fail(SecurityError(c.user, PermissionDenied))
    ensures user != SystemUserName ==>
              TableRule(s, c, table, r,
                SysHolds(s, c.user, SystemPermission.AlterTable) || TabHolds(s, c.user, table, TablePermission.Grant))
    ensures Genuine(s, c) && user != SystemUserName && SysHolds(s, c.user, SystemPermission.AlterTable) ==> r == Ok(true)
  {
    var _ :- Authenticate(s, c);
    if user == SystemUserName then Fail(SecurityError(c.user, PermissionDenied))
    else Or(HasSystemPermission(s, c.user, SystemPermission.AlterTable),
            HasTablePermission(s, c.user, table, TablePermission.Grant))
  }

  // ---------------------------------------------------------------------
  // Questions about other users
  // ---------------------------------------------------------------------

  /** Who may ask about `user`: `user` themself, or a holder of SYSTEM,
      CREATE_USER, ALTER_USER or DROP_USER. */
  predicate MayAskAbout(s: Security, asker: UserName, user: UserName) {
    || asker == user
    || SysHolds(s, asker, SystemPermission.System)
    || SysHolds(s, asker, SystemPermission.CreateUser)
    || SysHolds(s, asker, SystemPermission.AlterUser)
    || SysHolds(s, asker, SystemPermission.DropUser)
  }

  /** The last three permissions are asked through the public
      `hasSystemPermission`, which asks this predicate again about the caller. */
  function CanAskAboutOtherUsers(s: Security, c: Credentials, user: UserName): (r: Result<bool>)
    decreases if c.user == user then 0 else 2
    ensures SystemRule(s, c, r, MayAskAbout(s, c.user, user))
  {
    var _ :- Authenticate(s, c);
    if c.user == user then Ok(true)
    else
      Or(HasSystemPermission(s, c.user, SystemPermission.System),
         Or(AskSystemPermission(s, c, c.user, SystemPermission.CreateUser),
            Or(AskSystemPermission(s, c, c.user, SystemPermission.AlterUser),
               AskSystemPermission(s, c, c.user, SystemPermission.DropUser))))
  }

  /** The public `hasSystemPermission(credentials, user, permission)`. */
  function AskSystemPermission(s: Security, c: Credentials, user: UserName, p: SystemPermission): (r: Result<bool>)
    decreases if c.user == user then 1 else 3
    ensures AuthenticatedFirst(s, c, r)
    ensures Genuine(s, c) && !MayAskAbout(s, c.user, user) ==> r == Fail(SecurityError(c.user, PermissionDenied))
    ensures Genuine(s, c) && MayAskAbout(s, c.user, user) ==> r == HasSystemPermission(s, user, p)
  {
    var may :- CanAskAboutOtherUsers(s, c, user);
    if !may then Fail(SecurityError(c.user, PermissionDenied))
    else HasSystemPermission(s, user, p)
  }

  /** The public `hasTablePermission(credentials, user, table, permission)`. */
  function AskTablePermission(s: Security, c: Credentials, user: UserName, table: TableId, p: TablePermission): (r: Result<bool>)
    ensures AuthenticatedFirst(s, c, r)
    ensures Genuine(s, c) && !MayAskAbout(s, c.user, user) ==> r == Fail(SecurityError(c.user, PermissionDenied))
    ensures Genuine(s, c) && MayAskAbout(s, c.user, user) ==> r == HasTablePermission(s, user, table, p)
  {
    var may :- CanAskAboutOtherUsers(s, c, user);
    if !may then Fail(SecurityError(c.user, PermissionDenied))
    else HasTablePermission(s, user, table, p)
  }
}

=== FILE: scenarios.dfy ===
/** Properties that relate several calls: the whole policy matrix under a
    foreign instance id, round trips through the mutation gateway, and the
    clone-table walk-through. */
module Scenarios {
  import opened Types
  import opened Engine
  import opened Oracle
  import opened Policy
  import Gateway

  /** One question to the policy matrix, naming the `canX` predicate asked. */
  datatype Query =
    | Scan(table: TableId)
    | WriteTo(table: TableId)
    | Split(table: TableId)
    | SystemAction
    | Flush(table: TableId)
    | Alter(table: TableId)
    | Create
    | Rename(table: TableId)
    | Clone(table: TableId)
    | Delete(table: TableId)
    | OnlineOffline(table: TableId)
    | Merge(table: TableId)
    | DeleteRange(table: TableId)
    | Import(table: TableId)
    | Compact(table: TableId)
    | SetAuths(user: UserName)
    | SetPassword(user: UserName)
    | NewUser(user: UserName)
    | RemoveUser(user: UserName)
    | GrantSys(user: UserName, sp: SystemPermission)
    | GrantTab(user: UserName, table: TableId)
    | RevokeSys(user: UserName, sp: SystemPermission)
    | RevokeTab(user: UserName, table: TableId)
    | AskAbout(user: UserName)

  function Decide(s: Security, c: Credentials, q: Query): Result<bool> {
    match q
    case Scan(t) => CanScan(s, c, t)
    case WriteTo(t) => CanWrite(s, c, t)
    case Split(t) => CanSplitTablet(s, c, t)
    case SystemAction => CanPerformSystemActions(s, c)
    case Flush(t) => CanFlush(s, c, t)
    case Alter(t) => CanAlterTable(s, c, t)
    case Create => CanCreateTable(s, c)
    case Rename(t) => CanRenameTable(s, c, t)
    case Clone(t) => CanCloneTable(s, c, t)
    case Delete(t) => CanDeleteTable(s, c, t)
    case OnlineOffline(t) => CanOnlineOfflineTable(s, c, t)
    case Merge(t) => CanMerge(s, c, t)
    case DeleteRange(t) => CanDeleteRange(s, c, t)
    case Import(t) => CanBulkImport(s, c, t)
    case Compact(t) => CanCompact(s, c, t)
    case SetAuths(u) => CanChangeAuthorizations(s, c, u)
    case SetPassword(u) => CanChangePassword(s, c, u)
    case NewUser(u) => CanCreateUser(s, c, u)
    case RemoveUser(u) => CanDropUser(s, c, u)
    case GrantSys(u, p) => CanGrantSystem(s, c, u, p)
    case GrantTab(u, t) => CanGrantTable(s, c, u, t)
    case RevokeSys(u, p) => CanRevokeSystem(s, c, u, p)
    case RevokeTab(u, t) => CanRevokeTable(s, c, u, t)
    case AskAbout(u) => CanAskAboutOtherUsers(s, c, u)
  }

  /** Every predicate of the matrix refuses a credential of another instance
      with INVALID_INSTANCEID, whatever the backends hold. */
  lemma WrongInstanceRefusesEveryQuery(s: Security, c: Credentials, q: Query)
    requires c.instanceId != s.env.localInstance
    ensures Decide(s, c, q) == Fail(SecurityError(c.user, InvalidInstanceId))
  {
  }

  /** The system identity's verdicts do not depend on either backend: its
      authentication, and its answer to every question of the matrix, are the
      same whatever the backends hold. */
  lemma SystemUserBypassesBackend(s: Security, c: Credentials, other: Security, q: Query)
    requires c.user == SystemUserName && other.env == s.env
    ensures Authenticate(other, c) == Authenticate(s, c)
    ensures Decide(other, c, q) == Decide(s, c, q)
  {
  }

  /** Every authenticated user may scan the metadata table, table present or not. */
  lemma MetadataAlwaysScannable(s: Security, c: Credentials)
    requires Genuine(s, c)
    ensures CanScan(s, c, MetadataTableId) == Ok(true)
  {
  }

  /** GRANT can be neither granted nor revoked, by anyone, and trying changes nothing. */
  lemma GrantIsNeverTransferable(s: Security, c: Credentials, user: UserName)
    ensures Gateway.GrantSystemPermission(s, c, user, SystemPermission.Grant).status.Fail?
    ensures Gateway.GrantSystemPermission(s, c, user, SystemPermission.Grant).after == s
    ensures Gateway.RevokeSystemPermission(s, c, user, SystemPermission.Grant).status.Fail?
    ensures Gateway.RevokeSystemPermission(s, c, user, SystemPermission.Grant).after == s
  {
  }

  /** A user other than the system identity who holds system CREATE_TABLE,
      root included, cannot clone a table they cannot read; once READ on it is
      granted to them, they can. */
  lemma CloneAfterGrantingRead(s: Security, c: Credentials, grantor: Credentials, table: TableId)
    requires Genuine(s, c) && c.user != SystemUserName
    requires SysHolds(s, c.user, SystemPermission.CreateTable)
    requires table in s.authz.tables && table != MetadataTableId
    requires (c.user, table, TablePermission.Read) !in s.authz.tablePerms
    requires Gateway.GrantTablePermission(s, grantor, c.user, table, TablePermission.Read).status.Ok?
    ensures CanCloneTable(s, c, table) == Ok(false)
    ensures CanCloneTable(Gateway.GrantTablePermission(s, grantor, c.user, table, TablePermission.Read).after, c, table) == Ok(true)
  {
  }

  /** A successful change of authorizations is what the user then reads back. */
  lemma ChangedAuthorizationsReadBackBySelf(s: Security, c: Credentials, self: Credentials, a: Authorizations)
    requires Gateway.ChangeAuthorizations(s, c, self.user, a).status.Ok?
    requires Genuine(s, self)
    ensures Gateway.GetOwnAuthorizations(Gateway.ChangeAuthorizations(s, c, self.user, a).after, self) == Ok(a)
  {
  }

  /** A user created and then given authorizations `a` reads back `a` when
      logging in with the password they were created with. */
  lemma CreatedUserReadsBackAuthorizations(
    s: Security, creator: Credentials, user: UserName, password: Bytes, initial: Authorizations,
    admin: Credentials, a: Authorizations)
    requires Gateway.CreateUser(s, creator, user, password, initial).status.Ok?
    requires Gateway.ChangeAuthorizations(Gateway.CreateUser(s, creator, user, password, initial).after, admin, user, a).status.Ok?
    ensures var created := Gateway.CreateUser(s, creator, user, password, initial).after;
            var changed := Gateway.ChangeAuthorizations(created, admin, user, a).after;
            Gateway.GetOwnAuthorizations(changed, Credentials(user, password, s.env.localInstance)) == Ok(a)
  {
  }

  /** After a password change the new password authenticates and any other is refused. */
  lemma ChangedPasswordAuthenticates(s: Security, c: Credentials, user: UserName, password: Bytes, other: Bytes)
    requires Gateway.ChangePassword(s, c, user, password).status.Ok?
    requires other != password
    ensures var t := Gateway.ChangePassword(s, c, user, password).after;
            && Authenticate(t, Credentials(user, password, s.env.localInstance)) == Ok(())
            && Authenticate(t, Credentials(user, other, s.env.localInstance)) == Fail(SecurityError(user, BadCredentials))
  {
  }

  /** A created user appears in the user list, and nobody else appears or vanishes. */
  lemma CreatedUserIsListed(s: Security, c: Credentials, user: UserName, password: Bytes, a: Authorizations, d: Credentials)
    requires Gateway.CreateUser(s, c, user, password, a).status.Ok?
    requires Genuine(Gateway.CreateUser(s, c, user, password, a).after, d)
    ensures var listed := Gateway.ListUsers(Gateway.CreateUser(s, c, user, password, a).after, d);
            && listed.Ok?
            && forall u :: u in listed.value <==> u in s.authn.passwords || u == user
  {
  }

  /** A dropped user disappears from the user list, and nobody else does. */
  lemma DroppedUserIsNotListed(s: Security, c: Credentials, user: UserName, d: Credentials)
    requires Gateway.DropUser(s, c, user).status.Ok?
    requires Genuine(Gateway.DropUser(s, c, user).after, d)
    ensures var listed := Gateway.ListUsers(Gateway.DropUser(s, c, user).after, d);
            && listed.Ok?
            && forall u :: u in listed.value <==> u in s.authn.passwords && u != user
  {
  }
}

=== FILE: traces.dfy ===
/** Sequences of requests against the engine, and the invariant that the
    protected identities keep through any such sequence: the system identity
    never becomes a backend user and never holds a recorded permission, and
    the root user is never removed. */
module Traces {
  import opened Types
  import opened Engine
  import opened Oracle
  import Authorizor
  import Gateway
  import Caches

  /** Every state-changing entry point of the engine. The two cache clears are
      server-internal and ignore the caller. */
  datatype Request =
    | SetAuthorizations(user: UserName, auths: Authorizations)
    | SetPassword(user: UserName, password: Bytes)
    | AddUser(user: UserName, password: Bytes, auths: Authorizations)
    | RemoveUser(user: UserName)
    | GrantSystem(user: UserName, sp: SystemPermission)
    | RevokeSystem(user: UserName, sp: SystemPermission)
    | GrantTable(user: UserName, table: TableId, tp: TablePermission)
    | RevokeTable(user: UserName, table: TableId, tp: TablePermission)
    | DropTable(table: TableId)
    | ClearUserCache(user: UserName, clearPassword: bool, clearAuths: bool, clearSystem: bool, tables: set<TableId>)
    | ClearTableCache(table: TableId)

  datatype Call = Call(caller: Credentials, request: Request)

  predicate Credentialed(q: Request) {
    !q.ClearUserCache? && !q.ClearTableCache?
  }

  function Apply(s: Security, call: Call): Step {
    var c := call.caller;
    match call.request
    case SetAuthorizations(u, a) => Gateway.ChangeAuthorizations(s, c, u, a)
    case SetPassword(u, pw) => Gateway.ChangePassword(s, c, u, pw)
    case AddUser(u, pw, a) => Gateway.CreateUser(s, c, u, pw, a)
    case RemoveUser(u) => Gateway.DropUser(s, c, u)
    case GrantSystem(u, p) => Gateway.GrantSystemPermission(s, c, u, p)
    case RevokeSystem(u, p) => Gateway.RevokeSystemPermission(s, c, u, p)
    case GrantTable(u, t, p) => Gateway.GrantTablePermission(s, c, u, t, p)
    case RevokeTable(u, t, p) => Gateway.RevokeTablePermission(s, c, u, t, p)
    case DropTable(t) => Gateway.DeleteTable(s, c, t)
    case ClearUserCache(u, pw, a, sys, ts) => Caches.ClearCache(s, u, pw, a, sys, ts)
    case ClearTableCache(t) => Caches.ClearTableCache(s, t)
  }

  /** The state after running `calls` in order; a call that throws still leaves
      whatever partial effect it had. */
  function Run(s: Security, calls: seq<Call>): Security
    decreases |calls|
  {
    if |calls| == 0 then s else Run(Apply(s, calls[0]).after, calls[1..])
  }

  ghost predicate Protected(s: Security) {
    && Compatible(s.authz, s.authn)
    && s.env.rootUser != SystemUserName
    && s.env.rootUser in s.authn.passwords
    && SystemUserName !in s.authn.passwords
    && SystemUserName !in s.authz.auths
    && Authorizor.NoPermissions(s.authz, SystemUserName)
  }

  /** One request, from any caller, keeps the protected identities. */
  lemma {:induction false} ApplyKeepsProtected(s: Security, call: Call)
    requires Protected(s)
    ensures Protected(Apply(s, call).after)
    ensures Apply(s, call).after.env == s.env
  {
    var c := call.caller;
    match call.request
    case SetAuthorizations(u, a) => SetAuthorizationsKeepsProtected(s, c, u, a);
    case SetPassword(u, pw) => SetPasswordKeepsProtected(s, c, u, pw);
    case AddUser(u, pw, a) => AddUserKeepsProtected(s, c, u, pw, a);
    case RemoveUser(u) => RemoveUserKeepsProtected(s, c, u);
    case GrantSystem(u, p) => GrantSystemKeepsProtected(s, c, u, p);
    case RevokeSystem(u, p) => RevokeSystemKeepsProtected(s, c, u, p);
    case GrantTable(u, t, p) => GrantTableKeepsProtected(s, c, u, t, p);
    case RevokeTable(u, t, p) => RevokeTableKeepsProtected(s, c, u, t, p);
    case DropTable(t) => DropTableKeepsProtected(s, c, t);
    case ClearUserCache(u, pw, a, sys, ts) => ClearUserCacheKeepsProtected(s, u, pw, a, sys, ts);
    case ClearTableCache(t) => ClearTableCacheKeepsProtected(s, t);
  }

  lemma SetAuthorizationsKeepsProtected(s: Security, c: Credentials, u: UserName, a: Authorizations)
    requires Protected(s)
    ensures var t := Gateway.ChangeAuthorizations(s, c, u, a).after; Protected(t) && t.env == s.env
  {
  }

  lemma SetPasswordKeepsProtected(s: Security, c: Credentials, u: UserName, pw: Bytes)
    requires Protected(s)
    ensures var t := Gateway.ChangePassword(s, c, u, pw).after; Protected(t) && t.env == s.env
  {
  }

  lemma AddUserKeepsProtected(s: Security, c: Credentials, u: UserName, pw: Bytes, a: Authorizations)
    requires Protected(s)
    ensures var t := Gateway.CreateUser(s, c, u, pw, a).after; Protected(t) && t.env == s.env
  {
  }

  lemma RemoveUserKeepsProtected(s: Security, c: Credentials, u: UserName)
    requires Protected(s)
    ensures var t := Gateway.DropUser(s, c, u).after; Protected(t) && t.env == s.env
  {
  }

  lemma GrantSystemKeepsProtected(s: Security, c: Credentials, u: UserName, p: SystemPermission)
    requires Protected(s)
    ensures var t := Gateway.GrantSystemPermission(s, c, u, p).after; Protected(t) && t.env == s.env
  {
  }

  lemma RevokeSystemKeepsProtected(s: Security, c: Credentials, u: UserName, p: SystemPermission)
    requires Protected(s)
    ensures var t := Gateway.RevokeSystemPermission(s, c, u, p).after; Protected(t) && t.env == s.env
  {
  }

  lemma GrantTableKeepsProtected(s: Security, c: Credentials, u: UserName, table: TableId, p: TablePermission)
    requires Protected(s)
    ensures var t := Gateway.GrantTablePermission(s, c, u, table, p).after; Protected(t) && t.env == s.env
  {
  }

  lemma RevokeTableKeepsProtected(s: Security, c: Credentials, u: UserName, table: TableId, p: TablePermission)
    requires Protected(s)
    ensures var t := Gateway.RevokeTablePermission(s, c, u, table, p).after; Protected(t) && t.env == s.env
  {
  }

  lemma DropTableKeepsProtected(s: Security, c: Credentials, table: TableId)
    requires Protected(s)
    ensures var t := Gateway.DeleteTable(s, c, table).after; Protected(t) && t.env == s.env
  {
  }

  lemma ClearUserCacheKeepsProtected(s: Security, u: UserName, pw: bool, a: bool, sys: bool, ts: set<TableId>)
    requires Protected(s)
    ensures var t := Caches.ClearCache(s, u, pw, a, sys, ts).after; Protected(t) && t.env == s.env
  {
  }

  lemma ClearTableCacheKeepsProtected(s: Security, table: TableId)
    requires Protected(s)
    ensures var t := Caches.ClearTableCache(s, table).after; Protected(t) && t.env == s.env
  {
  }

  /** The protected identities survive every sequence of requests, whoever
      sends them. */
  lemma {:induction false} RunKeepsProtected(s: Security, calls: seq<Call>)
    requires Protected(s)
    ensures Protected(Run(s, calls))
    ensures Run(s, calls).env == s.env
    decreases |calls|
  {
    if |calls| > 0 {
      ApplyKeepsProtected(s, calls[0]);
      RunKeepsProtected(Apply(s, calls[0]).after, calls[1..]);
    }
  }

  /** A credential for another instance is rejected by every credentialed
      request, before anything changes. */
  lemma WrongInstanceChangesNothing(s: Security, call: Call)
    requires Credentialed(call.request)
    requires call.caller.instanceId != s.env.localInstance
    ensures Apply(s, call) == Step(s, Fail(SecurityError(call.caller.user, InvalidInstanceId)))
  {
  }

  /** Whatever sequence of requests is run, the root user keeps an account in
      the identity backend, so some password still logs it in. Which password
      that is may have changed: see `Hardening`. */
  lemma {:induction false} RootKeepsAccount(s: Security, calls: seq<Call>)
    requires Protected(s)
    ensures var t := Run(s, calls);
            exists pw :: Authenticate(t, Credentials(s.env.rootUser, pw, s.env.localInstance)) == Ok(())
  {
    RunKeepsProtected(s, calls);
    var t := Run(s, calls);
    var pw := t.authn.passwords[s.env.rootUser];
    assert Authenticate(t, Credentials(s.env.rootUser, pw, s.env.localInstance)) == Ok(());
  }

  /** Nobody can drop the root user, and trying changes nothing. */
  lemma RootCannotBeDropped(s: Security, c: Credentials)
    ensures Gateway.DropUser(s, c, s.env.rootUser) == Step(s, Gateway.DropUser(s, c, s.env.rootUser).status)
    ensures Gateway.DropUser(s, c, s.env.rootUser).status.Fail?
  {
  }

  /** Nobody can grant the system identity a system permission. */
  lemma SystemUserCannotBeGranted(s: Security, c: Credentials, p: SystemPermission)
    ensures Gateway.GrantSystemPermission(s, c, SystemUserName, p) == Step(s, Gateway.GrantSystemPermission(s, c, SystemUserName, p).status)
    ensures Gateway.GrantSystemPermission(s, c, SystemUserName, p).status.Fail?
  {
  }
}

=== FILE: types.dfy ===
/** Vocabulary shared by the whole security core: identities, credentials,
    the two permission enums, visibility labels, the typed error set and the
    result types that stand in for the source's checked exceptions. */
module Types {

  type UserName = string
  type TableId = string
  type Bytes = seq<bv8>

  /** Record-level visibility labels of a user (an `Authorizations` object). */
  type Authorizations = set<string>

  /** The user name of the built-in identity used for calls between servers. */
  const SystemUserName: UserName := "!SYSTEM"

  /** The id of the metadata table, which every existing user may read. */
  const MetadataTableId: TableId := "!0"

  /** The authorizations handed out for the system identity. */
  const NoAuths: Authorizations := {}

  /** What a caller presents on every request (`AuthInfo`). */
  datatype Credentials = Credentials(user: UserName, password: Bytes, instanceId: string)

  datatype SystemPermission =
    | Grant | CreateTable | DropTable | AlterTable | CreateUser | DropUser | AlterUser | System

  datatype TablePermission =
    | Read | Write | BulkImport | AlterTable | Grant | DropTable

  /** The security error codes this core raises or passes through. */
  datatype ErrorCode =
    | BadCredentials
    | PermissionDenied
    | UserDoesntExist
    | UserExists
    | GrantInvalid
    | InvalidInstanceId
    | TableDoesntExist

  /** A thrown security exception: the user it is attributed to and its code. */
  datatype SecurityError = SecurityError(user: UserName, code: ErrorCode)

  /** The outcome of an engine call: a value, or the security exception it throws. */
  datatype Result<+T> = Ok(value: T) | Fail(error: SecurityError) {
    predicate IsFailure() {
      Fail?
    }

    function PropagateFailure<U>(): Result<U>
      requires Fail?
    {
      Fail(error)
    }

    function Extract(): T
      requires Ok?
    {
      value
    }
  }

  /** The outcome of a backend call: a value, a security exception, or a
      `TableNotFoundException`. */
  datatype Backend<+T> = Done(value: T) | Refused(error: SecurityError) | TableNotFound

  /** Process-wide constants: the local instance id, the root user's name
      (read once from the coordination service) and the system credential. */
  datatype Env = Env(localInstance: string, rootUser: UserName, systemCredentials: Credentials)
}
